=== FILE: README.md ===
# deepl-action: structural differ and key-path utilities

The `deepl-action` GitHub Action translates a file with DeepL and commits the result. Its `src/utils` directory holds a structural differ and two key-path utilities for nested key-value documents. The action's entry point, `src/main.ts`, does not use them: it sends the source file to DeepL as a single string and commits the first translation it gets back.

This project models those utilities, `src/utils/diff.ts` and `src/utils/get_in.ts`, in Dafny:

- `createDeepDiff(prev, next, path)` (exported as `diff`) lists, in two lists, the key paths that `next` has and `prev` lacks (`added`) and those that `prev` has and `next` lacks (`removed`). It descends into a key only when both sides hold an object there. It never compares the values of keys that both sides have.
- `getIn(obj, path)` reads the value at a key path.
- `setIn(obj, path, value)` writes a value at a key path. Every missing intermediate key gets a new `{}`. The object is updated in place.

The documents are modelled as JavaScript values in a heap (module `JsHeap`):

- The heap is a store of plain objects, indexed by address. Class `Heap` holds it in its field `objs`, and `setIn` mutates that field.
- Each object keeps its own keys in `Object.keys` order.
- A value is a primitive (string, integer, boolean, `null`) or a reference to an object.
- Where JavaScript throws, the model returns `TypeError`. This happens in two places:
  - `key in current` on a primitive, in both utilities;
  - in strict mode, assigning a property of a primitive, in `setIn`. `get_in.ts` is an ES module, and ES modules always run in strict mode.

Each looping routine is a method proved equal to a recursive specification function:

| method | specification function |
|---|---|
| `GetIn.GetIn` | `GetIn.Get` |
| `GetIn.SetIn` | `GetIn.Set` |
| `Diff.CreateDeepDiff` | `Diff.DeepDiffOf` |

The properties are proved about those functions.

The differ is characterised exactly by `DiffProperties.DeepDiffExact`:

- a path is in `added` if and only if it extends `path` by a key path that `getIn` finds under `next` and not under `prev`, with every proper prefix an object on both sides;
- `removed` is characterised the same way, with the two documents swapped.

In these cases the model follows what the code does:

- `diff({}, next)` reports only the top-level keys of `next` (`DiffFromEmpty`). It does not expand their subtrees: with no object on the `prev` side, there is nothing to descend into.
- `getIn` through a truthy primitive intermediate throws a TypeError. It does not return `undefined`. Only a falsy intermediate gives `undefined`.
- `setIn` through a primitive intermediate throws a TypeError (`SetThrowsIff`). Until that point it mutates nothing.
- Get-after-set (`SetThenGet`) is proved for acyclic heaps. On a cyclic heap it can fail, as `TestCases.SetThenGetOnCycle` shows, and it can still hold, as `TestCases.SetThenGetOnCycleHolds` shows. A document parsed from JSON is always a tree.

## Model

| member | source | states |
|---|---|---|
| JsHeap.Truthy | src/utils/get_in.ts:10 | a value is falsy exactly when it is `""`, `0`, `false` or `null`; every object is truthy. This is the test `current && …` here and `!obj` at lines 3 and 22 |
| JsHeap.IsObject | src/utils/diff.ts:3-5 | a read is an object exactly when it is a defined reference; primitives, `null` and `undefined` are not |
| JsHeap.Assign | src/utils/get_in.ts:31 | `o[k] = v`: the key then holds `v`, every other key keeps its value, the key set gains only `k`, the old key order is kept with a new key appended after it, and distinct well-formed keys stay so |
| GetIn.Walk | src/utils/get_in.ts:9-15 | the loop of `getIn` from a cursor: `undefined` at a falsy cursor or a missing key, a TypeError at a truthy primitive; a value it ends at is a value of the heap, never a dangling reference |
| GetIn.Get | src/utils/get_in.ts:2-18 | `getIn`: a defined result needs a non-empty path and lies in the heap; a TypeError needs a truthy root and a non-empty path, because the guard at line 3 answers `undefined` first |
| GetIn.SetFrom | src/utils/get_in.ts:28-36 | the loop and the final assignment of `setIn`, from a cursor: when it does not throw, the new heap is closed and keeps every old address, new objects being appended |
| GetIn.Set | src/utils/get_in.ts:21-39 | `setIn` on the heap, with the guard at lines 22-24: when it does not throw, the new heap is closed and keeps every old address |
| GetIn.GetIn | src/utils/get_in.ts:2-18 | the loop of `getIn` returns what the specification function `Get` gives: `undefined` for a falsy root, an empty path, a falsy cursor or a missing key, a TypeError for a truthy primitive cursor, and otherwise the value at the path |
| GetIn.SetIn | src/utils/get_in.ts:21-39 | the in-place loop of `setIn` leaves the heap `Set` gives and returns the root handle, or throws with the heap unchanged; the heap stays closed |
| GetInProperties.GetUndefinedAtRoot | src/utils/get_in.ts:3-5 | an empty path or a falsy root reads `undefined` |
| GetInProperties.WalkAppend | src/utils/get_in.ts:9-15 | walking `p + q` is walking `p`, then `q` from where it ended; a stopped walk stays stopped |
| GetInProperties.GetExtend | src/utils/get_in.ts:9-15 | reading `p + [k]` is reading key `k` of what `p` reads, or `undefined` (missing or falsy) or a TypeError (truthy primitive, or `p` threw) |
| GetInProperties.GetOneKey | src/utils/get_in.ts:9-15 | a one-key path reads that own property of the root object |
| GetInProperties.SetNoOp | src/utils/get_in.ts:22-24 | an empty path or a falsy root leaves the heap unchanged |
| GetInProperties.SetFromEmptyNeverThrows | src/utils/get_in.ts:28-36 | from a `{}` the rest of the walk never throws |
| GetInProperties.SetThrowsIff | src/utils/get_in.ts:28-36 | `setIn` throws exactly when the root or an existing intermediate is a primitive |
| GetInProperties.SetThenGet | src/utils/get_in.ts:21-39 | on an acyclic heap, reading the path back after `setIn` gives the value written |
| GetInProperties.SetKeepsAcyclic | src/utils/get_in.ts:28-36 | writing a primitive keeps the heap acyclic |
| GetInProperties.SetFrame | src/utils/get_in.ts:28-36 | objects only gain keys, appended after the old ones; only the last key on its parent changes value; other new keys hold new objects |
| GetInProperties.SetTouchesOnlyWalk | src/utils/get_in.ts:28-36 | every old object that neither the root nor any proper prefix of the path reads is left unchanged |
| GetInProperties.SetCreatesIntermediates | src/utils/get_in.ts:28-34 | on an acyclic heap, after `setIn` every proper prefix reads the same object as before or, where there was none, a new object holding only the next key |
| GetInProperties.CreatedHoldsNextKey | src/utils/get_in.ts:30-33 | on any heap, a `{}` created by `setIn` ends up holding only the next key of the path |
| Diff.DeepDiffOf | src/utils/diff.ts:12-36 | `createDeepDiff` as a function: the first loop's lists, then the second loop's paths appended to `removed`. What it reports is characterised by the `DiffProperties` lemmas below |
| Diff.NextKeysDiff | src/utils/diff.ts:17-27 | the first loop after a prefix of the keys of `next`: one pass per key, each appending to both lists. `NextKeysHas` and `NextKeysSound` state what it reports |
| Diff.KeyDiff | src/utils/diff.ts:18-26 | one pass of the first loop: the key's own path in `added` when `prev` lacks it, then the nested diff's paths when both sides hold an object there. `KeyDiffSound` states what it reports |
| Diff.GoneKeys | src/utils/diff.ts:29-33 | the second loop: at most one path per key of `prev`. `GoneKeysHas` and `GoneKeysSound` state which |
| Diff.CreateDeepDiff | src/utils/diff.ts:12-36 | the two loops and the recursive call return what the specification function `DeepDiffOf` gives |
| Diff.Diff | src/utils/diff.ts:38 | `diff` is `createDeepDiff` from the empty path |
| DiffProperties.DeepDiffSound | src/utils/diff.ts:12-36 | every added path exists under `next` and not under `prev`, every removed path the reverse, each through objects on both sides |
| DiffProperties.NextKeysSound | src/utils/diff.ts:17-27 | the first loop is sound, reports only below the keys it visited, and its removed paths are nested ones |
| DiffProperties.KeyDiffSound | src/utils/diff.ts:18-26 | one pass is sound and reports only below its own key |
| DiffProperties.NextKeysHas | src/utils/diff.ts:17-27 | whatever the pass for a visited key reports is in the first loop's lists |
| DiffProperties.GoneKeysHas | src/utils/diff.ts:29-33 | every key of `prev` missing from `next` is reported by the second loop |
| DiffProperties.GoneKeysSound | src/utils/diff.ts:29-33 | the second loop reports one-key paths of `prev` missing from `next` |
| DiffProperties.AddedComplete | src/utils/diff.ts:17-27 | every key path under `next` and not under `prev` is reported as added |
| DiffProperties.RemovedComplete | src/utils/diff.ts:12-36 | every key path under `prev` and not under `next` is reported as removed |
| DiffProperties.DeepDiffExact | src/utils/diff.ts:12-36 | membership in `added` and in `removed` is exactly the two-way existence condition above |
| DiffProperties.DeepDiffDisjoint | src/utils/diff.ts:12-36 | no path is both added and removed |
| DiffProperties.DeepDiffOfSelf | src/utils/diff.ts:12-36 | a document diffed with itself gives two empty lists |
| DiffProperties.SharedScalarNotReported | src/utils/diff.ts:22 | a key both sides have, not holding objects on both, is never reported, nor anything below it |
| DiffProperties.DeepDiffNoDuplicates | src/utils/diff.ts:12-36 | no path is listed twice in `added` or in `removed` |
| DiffProperties.NextKeysNoDuplicates | src/utils/diff.ts:17-27 | the first loop lists each path once |
| DiffProperties.GoneKeysNoDuplicates | src/utils/diff.ts:29-33 | the second loop lists each path once, all one key below `path` |
| DiffProperties.DiffFromEmpty | src/utils/diff.ts:17-20 | from `{}`: `added` is the top-level keys of `next` in order, `removed` is empty |
| DiffProperties.DiffToEmpty | src/utils/diff.ts:29-33 | to `{}`: `removed` is the top-level keys of `prev` in order, `added` is empty |
| DiffProperties.NextKeysOrder | src/utils/diff.ts:17-27 | the first loop reports in the order of the keys it visits, in `added` and in `removed` |
| DiffProperties.GoneKeysOrder | src/utils/diff.ts:29-33 | the second loop reports in the order of the keys of `prev` |
| DiffProperties.AddedOrder | src/utils/diff.ts:17-27 | `added` is grouped by the first key below `path`, the groups in the key order of `next` |
| DiffProperties.RemovedOrder | src/utils/diff.ts:12-36 | `removed` lists the nested paths first, in the key order of `next`, then the one-key paths, in the key order of `prev` |
| DiffProperties.RemovedParts | src/utils/diff.ts:12-36 | the part of `removed` from the first loop holds nested paths in `next`'s key order; the part from the second loop holds one-key paths in `prev`'s key order |
| TestCases.GetEmptyPath | src/utils/get_in.spec.ts:4-8 | the empty path reads `undefined` |
| TestCases.GetMissingKey | src/utils/get_in.spec.ts:10-14 | `["a", "b", "d"]` reads `undefined` |
| TestCases.GetExistingPath | src/utils/get_in.spec.ts:16-20 | `["a", "b", "c"]` reads `1` |
| TestCases.GetThroughString | src/utils/get_in.ts:10 | reading through `"x"` throws, reading through `""` gives `undefined` |
| TestCases.SetCreatesPath | src/utils/get_in.ts:28-36 | `setIn({}, ["a", "b"], 1)` builds `{ a: { b: 1 } }` |
| TestCases.SetThroughNumber | src/utils/get_in.ts:36 | `setIn({ a: 1 }, ["a", "b"], 2)` throws: the final assignment `1["b"] = 2` fails in strict mode |
| TestCases.SetThenGetOnCycle | src/utils/get_in.ts:28-36 | on a cyclic object, reading back after `setIn` throws |
| TestCases.IntermediatesOnCycle | src/utils/get_in.ts:28-36 | on the cyclic object of `SetThenGetOnCycle`, after `setIn(o, ["a", "a"], 5)` the prefix `["a"]` reads `5`, not the object it read before |
| TestCases.SetThenGetOnCycleHolds | src/utils/get_in.ts:21-39 | on the same cyclic object, `setIn(o, ["b"], 1)` and then reading `["b"]` gives `1` |
| TestCases.DiffAddedAndRemoved | src/utils/diff.spec.ts:5-12 | the diff is `added == [["b", "d"], ["e"]]`, `removed == []` |
| TestCases.DiffTopKeys | src/utils/diff.spec.ts:6-7 | the passes for `a`, `b` and `e` add nothing, `["b", "d"]` and `["e"]` |
| TestCases.DiffBelowB | src/utils/diff.spec.ts:6-7 | the nested diff below `b` adds `["b", "d"]` |
| TestCases.DiffFromEmptyExample | src/utils/diff.spec.ts:14-24 | from `{}`, `added == [["title"], ["description"]]` |

## Left out

- `src/main.ts` and `dist/main.js` are not part of this model. They read the action's inputs and the source file, call the DeepL translator, and commit the translation through Octokit. All of that is I/O, and none of it calls the utilities modelled here.
- Arrays are not modelled. `isObject` rejects them, so the differ treats an array like a primitive, and the documents are JSON objects of strings.
- Numbers are limited to integers, so `NaN` and floating point are not modelled. Only their truthiness matters here.
- `undefined` as a stored value is not modelled. JSON documents cannot hold it.
- Only own properties are modelled. In the source, `key in current` (get_in.ts:10 and 30) also sees inherited keys such as `toString`. The reads `prev[key]` and `next[key]` (diff.ts:22) also see them: for an own key `__proto__` in `next` that `prev` lacks, `prev[key]` is `Object.prototype`, an object, so the source descends into it.
- `Object.keys` lists integer-like keys first in ascending order. The model keeps plain insertion order for every key.
- Numeric path keys are modelled as their string form.
- `Diff.DeepDiffOf`: requires an acyclic heap, numbered so that every reference points to a higher address. This excludes every heap that contains a cycle, even one outside the two documents. The source returns on some of these inputs, because it recurses only where both sides hold an object. For example, with `x.a === x`, `diff(x, {})` gives `removed == [["a"]]`. Only a cycle that both sides walk in step makes it recurse until the stack overflows, which throws a RangeError. Those inputs are not modelled because a document parsed from JSON is always a tree.
- `Diff.CreateDeepDiff`: has the same acyclic-heap requirement as `Diff.DeepDiffOf`, for the same reason.
- `Diff.Diff`: has the same acyclic-heap requirement as `Diff.DeepDiffOf`, for the same reason.
- `GetInProperties.SetThenGet`: is proved for acyclic heaps with an object root. On a cyclic heap it can fail, as `TestCases.SetThenGetOnCycle` shows.
- `GetInProperties.SetCreatesIntermediates`: is proved for acyclic heaps only. On a cyclic heap it can fail, as `TestCases.IntermediatesOnCycle` shows.
- `GetInProperties.SetFrame`: states the frame per object and key, not per path. `GetInProperties.SetTouchesOnlyWalk` adds that only the objects on the walk change. On a heap that shares those objects between paths, other paths see the change; what they then read is not stated.

=== FILE: diff.dfy ===
/** The structural differ (src/utils/diff.ts): `createDeepDiff(prev, next, path)`,
    exported as `diff`, lists the key paths that `next` has and `prev` lacks
    (`added`) and those that `prev` has and `next` lacks (`removed`),
    descending into keys where both sides hold an object.  Values of keys
    present on both sides are never compared.

    Both documents are objects of one heap, given by their addresses.
 */
module Diff {
  import opened JsHeap

  /** `DeepDiff` (src/utils/diff.ts:7-10). */
  datatype DeepDiff = DeepDiff(added: seq<Path>, removed: seq<Path>)

  /** The two documents are objects of a closed, acyclic heap; acyclicity is
      what makes the descent end. */
  ghost predicate Diffable(objs: seq<Obj>, prev: nat, next: nat) {
    Closed(objs) && Acyclic(objs) && prev < |objs| && next < |objs|
  }

  /** A measure that every descent into a pair of child objects decreases. */
  function Depth(objs: seq<Obj>, prev: nat, next: nat): nat
    requires prev < |objs| && next < |objs|
  {
    2 * |objs| - prev - next
  }

  /** `createDeepDiff(prev, next, path)` (src/utils/diff.ts:12-36): the first
      loop over the keys of `next`, then the second loop, which appends the
      keys of `prev` missing from `next` to `removed`. */
  function DeepDiffOf(objs: seq<Obj>, prev: nat, next: nat, path: Path): DeepDiff
    requires Diffable(objs, prev, next)
    decreases Depth(objs, prev, next), 2
  {
    var d := NextKeysDiff(objs, prev, next, path, objs[next].keys);
    DeepDiff(d.added, d.removed + GoneKeys(path, objs[prev].keys, objs[next]))
  }

  /** The first loop of `createDeepDiff` (src/utils/diff.ts:17-27) after it has
      gone through the keys `ks`, one `KeyDiff` after another. */
  function NextKeysDiff(objs: seq<Obj>, prev: nat, next: nat, path: Path, ks: seq<string>): DeepDiff
    requires Diffable(objs, prev, next)
    decreases Depth(objs, prev, next), 1, |ks|
  {
    if ks == [] then DeepDiff([], [])
    else
      var d := NextKeysDiff(objs, prev, next, path, ks[..|ks| - 1]);
      var k := KeyDiff(objs, prev, next, path, ks[|ks| - 1]);
      DeepDiff(d.added + k.added, d.removed + k.removed)
  }

  /** What one pass of the first loop (src/utils/diff.ts:18-26) pushes for
      `key`: the key's own path to `added` when `prev` lacks it, then, when
      both sides hold an object at the key, the nested diff's paths. */
  function KeyDiff(objs: seq<Obj>, prev: nat, next: nat, path: Path, key: string): DeepDiff
    requires Diffable(objs, prev, next)
    decreases Depth(objs, prev, next), 0
  {
    var own := if key !in objs[prev].props then [path + [key]] else [];
    var p := Prop(objs[prev], key);
    var n := Prop(objs[next], key);
    if IsObject(p) && IsObject(n) then
      var nested := DeepDiffOf(objs, p.v.addr, n.v.addr, path + [key]);
      DeepDiff(own + nested.added, nested.removed)
    else DeepDiff(own, [])
  }

  /** What the second loop of `createDeepDiff` (src/utils/diff.ts:29-33) pushes
      to `removed` after going through the keys `ks` of `prev`: the keys
      missing from `next`, in order. */
  function GoneKeys(path: Path, ks: seq<string>, next: Obj): (r: seq<Path>)
    ensures |r| <= |ks|
  {
    if ks == [] then []
    else
      var key := ks[|ks| - 1];
      GoneKeys(path, ks[..|ks| - 1], next) + if key !in next.props then [path + [key]] else []
  }

  /** `createDeepDiff` as the source runs it: two loops pushing onto local
      lists, and a recursive call whose results are spliced in. */
  method CreateDeepDiff(h: Heap, prev: nat, next: nat, path: Path) returns (d: DeepDiff)
    requires h.Valid() && Diffable(h.objs, prev, next)
    ensures d == DeepDiffOf(h.objs, prev, next, path)
    decreases Depth(h.objs, prev, next)
  {
    var prevObj := h.objs[prev];
    var nextObj := h.objs[next];
    var prevKeys := prevObj.keys;
    var nextKeys := nextObj.keys;
    var added: seq<Path> := [];
    var removed: seq<Path> := [];
    for i := 0 to |nextKeys|
      invariant DeepDiff(added, removed) == NextKeysDiff(h.objs, prev, next, path, nextKeys[..i])
    {
      var key := nextKeys[i];
      assert nextKeys[..i + 1][..i] == nextKeys[..i];
      ghost var before := DeepDiff(added, removed);
      if key !in prevObj.props {
        added := added + [path + [key]];
      }
      var p := Prop(prevObj, key);
      var n := Prop(nextObj, key);
      if IsObject(p) && IsObject(n) {
        var nested := CreateDeepDiff(h, p.v.addr, n.v.addr, path + [key]);
        added := added + nested.added;
        removed := removed + nested.removed;
      }
      assert added == before.added + KeyDiff(h.objs, prev, next, path, key).added;
    }
    assert nextKeys[..|nextKeys|] == nextKeys;
    ghost var fromNext := removed;
    for i := 0 to |prevKeys|
      invariant removed == fromNext + GoneKeys(path, prevKeys[..i], nextObj)
    {
      var key := prevKeys[i];
      assert prevKeys[..i + 1][..i] == prevKeys[..i];
      if key !in nextObj.props {
        removed := removed + [path + [key]];
      }
    }
    assert prevKeys[..|prevKeys|] == prevKeys;
    d := DeepDiff(added, removed);
  }

  /** `diff(prev, next)` (src/utils/diff.ts:38): `createDeepDiff` from the root. */
  method Diff(h: Heap, prev: nat, next: nat) returns (d: DeepDiff)
    requires h.Valid() && Diffable(h.objs, prev, next)
    ensures d == DeepDiffOf(h.objs, prev, next, [])
  {
    d := CreateDeepDiff(h, prev, next, []);
  }
}

=== FILE: diff_properties.dfy ===
/** What the structural differ (src/utils/diff.ts) promises, proved about its
    model `Diff.DeepDiffOf`, with paths read back through `getIn`
    (`GetIn.Get`). */
module DiffProperties {
  import opened JsHeap
  import opened GetIn
  import opened GetInProperties
  import opened Diff

  /** `getIn(root, rest)` gives an object. */
  ghost predicate ObjectAt(objs: seq<Obj>, root: nat, rest: Path)
    requires Closed(objs) && root < |objs|
  {
    var g := Get(objs, Ref(root), rest);
    g.Normal? && IsObject(g.result)
  }

  /** The key path `rest` (relative to the two roots) exists under `here` and
      not under `there`, while every proper prefix of it is an object under
      both: `getIn(here, rest)` is defined and `getIn(there, rest)` is
      `undefined`. */
  ghost predicate OnlyUnder(objs: seq<Obj>, here: nat, there: nat, rest: Path)
    requires Closed(objs) && here < |objs| && there < |objs|
  {
    && |rest| >= 1
    && (forall j | 1 <= j < |rest| :: ObjectAt(objs, here, rest[..j]) && ObjectAt(objs, there, rest[..j]))
    && Get(objs, Ref(here), rest).Normal? && Get(objs, Ref(here), rest).result.Defined?
    && Get(objs, Ref(there), rest) == Normal(Undefined)
  }

  // ------------------------------------------------------ reading below a key

  /** Below an object-valued key, `getIn` continues from that object. */
  lemma GetBelowKey(objs: seq<Obj>, a: nat, key: string, child: nat, rest: Path)
    requires Closed(objs) && a < |objs| && key in objs[a].props && objs[a].props[key] == Ref(child)
    ensures child < |objs|
    ensures rest != [] ==> Get(objs, Ref(a), [key] + rest) == Get(objs, Ref(child), rest)
    ensures Get(objs, Ref(a), [key]) == Normal(Defined(Ref(child)))
  {
    assert ([key] + rest)[0] == key && ([key] + rest)[1..] == rest;
    assert [key][1..] == [];
    assert Walk(objs, Ref(child), []) == Normal(Defined(Ref(child)));
  }

  /** A path that exists under one child object and not under the other
      lifts to the parents through the shared key. */
  lemma OnlyUnderLift(objs: seq<Obj>, here: nat, there: nat, key: string, h: nat, t: nat, rest: Path)
    requires Closed(objs) && here < |objs| && there < |objs|
    requires key in objs[here].props && objs[here].props[key] == Ref(h)
    requires key in objs[there].props && objs[there].props[key] == Ref(t)
    requires h < |objs| && t < |objs| && OnlyUnder(objs, h, t, rest)
    ensures OnlyUnder(objs, here, there, [key] + rest)
  {
    GetBelowKey(objs, here, key, h, rest);
    GetBelowKey(objs, there, key, t, rest);
    var full := [key] + rest;
    forall j | 1 <= j < |full|
      ensures ObjectAt(objs, here, full[..j]) && ObjectAt(objs, there, full[..j])
    {
      if j == 1 {
        assert full[..1] == [key];
      } else {
        assert full[..j] == [key] + rest[..j - 1];
        GetBelowKey(objs, here, key, h, rest[..j - 1]);
        GetBelowKey(objs, there, key, t, rest[..j - 1]);
      }
    }
  }

  /** A path that exists under one object and not under the other steps down
      through its first key: that key is missing from `there` (and the path
      has one key), or both sides hold objects at it. */
  lemma OnlyUnderSplit(objs: seq<Obj>, here: nat, there: nat, rest: Path)
    requires Closed(objs) && here < |objs| && there < |objs| && OnlyUnder(objs, here, there, rest)
    ensures rest[0] in objs[here].props
    ensures |rest| == 1 ==> rest[0] !in objs[there].props
    ensures |rest| > 1 ==>
              && IsObject(Prop(objs[here], rest[0])) && IsObject(Prop(objs[there], rest[0]))
              && OnlyUnder(objs, objs[here].props[rest[0]].addr, objs[there].props[rest[0]].addr, rest[1..])
  {
    var key := rest[0];
    assert rest[..1] == [key] && [key][1..] == [];
    if key in objs[here].props {
      assert Walk(objs, objs[here].props[key], []) == Normal(Defined(objs[here].props[key]));
    }
    if key in objs[there].props {
      assert Walk(objs, objs[there].props[key], []) == Normal(Defined(objs[there].props[key]));
    }
    if |rest| == 1 {
      assert rest == [key];
    } else {
      assert ObjectAt(objs, here, rest[..1]) && ObjectAt(objs, there, rest[..1]);
      var h := objs[here].props[key].addr;
      var t := objs[there].props[key].addr;
      var tail := rest[1..];
      assert rest == [key] + tail;
      GetBelowKey(objs, here, key, h, tail);
      GetBelowKey(objs, there, key, t, tail);
      forall j | 1 <= j < |tail|
        ensures ObjectAt(objs, h, tail[..j]) && ObjectAt(objs, t, tail[..j])
      {
        assert rest[..j + 1] == [key] + tail[..j];
        assert ObjectAt(objs, here, rest[..j + 1]) && ObjectAt(objs, there, rest[..j + 1]);
        GetBelowKey(objs, here, key, h, tail[..j]);
        GetBelowKey(objs, there, key, t, tail[..j]);
      }
    }
  }

  // ------------------------------------------------------------- soundness

  /** Every path in `d.added` extends `path` by a key path that exists under
      `next` and not under `prev`, and every path in `d.removed` by one that
      exists under `prev` and not under `next`. */
  ghost predicate Sound(objs: seq<Obj>, prev: nat, next: nat, path: Path, d: DeepDiff)
    requires Diffable(objs, prev, next)
  {
    && (forall q | q in d.added :: |q| > |path| && q[..|path|] == path && OnlyUnder(objs, next, prev, q[|path|..]))
    && (forall q | q in d.removed :: |q| > |path| && q[..|path|] == path && OnlyUnder(objs, prev, next, q[|path|..]))
  }

  /** Soundness of `createDeepDiff`. */
  lemma {:induction false} DeepDiffSound(objs: seq<Obj>, prev: nat, next: nat, path: Path)
    requires Diffable(objs, prev, next)
    ensures Sound(objs, prev, next, path, DeepDiffOf(objs, prev, next, path))
    decreases Depth(objs, prev, next), 2
  {
    var ks := objs[next].keys;
    assert forall k | k in ks :: k in objs[next].props;
    NextKeysSound(objs, prev, next, path, ks);
    GoneKeysSound(objs, prev, next, path, objs[prev].keys);
  }

  /** Soundness of the first loop: it also reports only below keys of `ks`,
      and its removed paths all lie below a shared key. */
  lemma {:induction false} NextKeysSound(objs: seq<Obj>, prev: nat, next: nat, path: Path, ks: seq<string>)
    requires Diffable(objs, prev, next) && forall k | k in ks :: k in objs[next].props
    ensures Sound(objs, prev, next, path, NextKeysDiff(objs, prev, next, path, ks))
    ensures forall q | q in NextKeysDiff(objs, prev, next, path, ks).added ::
              |q| > |path| && q[|path|] in ks
    ensures forall q | q in NextKeysDiff(objs, prev, next, path, ks).removed ::
              |q| > |path| + 1 && q[|path|] in ks
    decreases Depth(objs, prev, next), 1, |ks|
  {
    if ks != [] {
      NextKeysSound(objs, prev, next, path, ks[..|ks| - 1]);
      KeyDiffSound(objs, prev, next, path, ks[|ks| - 1]);
    }
  }

  /** Soundness of one pass of the first loop: everything it reports lies
      below `path + [key]`. */
  lemma {:induction false} KeyDiffSound(objs: seq<Obj>, prev: nat, next: nat, path: Path, key: string)
    requires Diffable(objs, prev, next) && key in objs[next].props
    ensures Sound(objs, prev, next, path, KeyDiff(objs, prev, next, path, key))
    ensures forall q | q in KeyDiff(objs, prev, next, path, key).added :: |q| > |path| && q[|path|] == key
    ensures forall q | q in KeyDiff(objs, prev, next, path, key).removed :: |q| > |path| + 1 && q[|path|] == key
    decreases Depth(objs, prev, next), 0
  {
    var own: seq<Path> := if key !in objs[prev].props then [path + [key]] else [];
    if key !in objs[prev].props {
      OwnKeySound(objs, prev, next, path, key);
    }
    var p := Prop(objs[prev], key);
    var n := Prop(objs[next], key);
    if IsObject(p) && IsObject(n) {
      var path' := path + [key];
      DeepDiffSound(objs, p.v.addr, n.v.addr, path');
      var nested := DeepDiffOf(objs, p.v.addr, n.v.addr, path');
      NestedLift(objs, prev, next, path, key, p.v.addr, n.v.addr, nested);
      assert KeyDiff(objs, prev, next, path, key) == DeepDiff(own + nested.added, nested.removed);
    } else {
      assert KeyDiff(objs, prev, next, path, key) == DeepDiff(own, []);
    }
  }

  /** A key of `next` missing from `prev` is itself an added path. */
  lemma OwnKeySound(objs: seq<Obj>, prev: nat, next: nat, path: Path, key: string)
    requires Diffable(objs, prev, next) && key in objs[next].props && key !in objs[prev].props
    ensures var q := path + [key];
            |q| > |path| && q[..|path|] == path && q[|path|] == key && OnlyUnder(objs, next, prev, q[|path|..])
  {
    var q := path + [key];
    assert q[..|path|] == path && q[|path|..] == [key];
    GetOneKey(objs, next, key);
    GetOneKey(objs, prev, key);
  }

  /** What the nested diff below a shared object-valued key reports, sound
      relative to the two children, is sound relative to the parents. */
  lemma NestedLift(objs: seq<Obj>, prev: nat, next: nat, path: Path, key: string, pa: nat, na: nat, nested: DeepDiff)
    requires Diffable(objs, prev, next) && Diffable(objs, pa, na)
    requires key in objs[prev].props && objs[prev].props[key] == Ref(pa)
    requires key in objs[next].props && objs[next].props[key] == Ref(na)
    requires Sound(objs, pa, na, path + [key], nested)
    ensures forall q | q in nested.added ::
              |q| > |path| + 1 && q[..|path|] == path && q[|path|] == key && OnlyUnder(objs, next, prev, q[|path|..])
    ensures forall q | q in nested.removed ::
              |q| > |path| + 1 && q[..|path|] == path && q[|path|] == key && OnlyUnder(objs, prev, next, q[|path|..])
  {
    forall q | q in nested.added
      ensures |q| > |path| + 1 && q[..|path|] == path && q[|path|] == key
      ensures OnlyUnder(objs, next, prev, q[|path|..])
    {
      LiftOne(objs, next, prev, path, key, na, pa, q);
    }
    forall q | q in nested.removed
      ensures |q| > |path| + 1 && q[..|path|] == path && q[|path|] == key
      ensures OnlyUnder(objs, prev, next, q[|path|..])
    {
      LiftOne(objs, prev, next, path, key, pa, na, q);
    }
  }

  /** One path of the nested diff, lifted to the parents. */
  lemma LiftOne(objs: seq<Obj>, here: nat, there: nat, path: Path, key: string, h: nat, t: nat, q: Path)
    requires Closed(objs) && here < |objs| && there < |objs| && h < |objs| && t < |objs|
    requires key in objs[here].props && objs[here].props[key] == Ref(h)
    requires key in objs[there].props && objs[there].props[key] == Ref(t)
    requires |q| > |path| + 1 && q[..|path| + 1] == path + [key] && OnlyUnder(objs, h, t, q[|path| + 1..])
    ensures q[..|path|] == path && q[|path|] == key && OnlyUnder(objs, here, there, q[|path|..])
  {
    var path' := path + [key];
    assert q[..|path'|] == path';
    assert q[|path|..] == [key] + q[|path'|..];
    OnlyUnderLift(objs, here, there, key, h, t, q[|path'|..]);
  }

  /** Soundness of the second loop. */
  lemma {:induction false} GoneKeysSound(objs: seq<Obj>, prev: nat, next: nat, path: Path, ks: seq<string>)
    requires Diffable(objs, prev, next) && forall k | k in ks :: k in objs[prev].keys
    ensures forall q | q in GoneKeys(path, ks, objs[next]) ::
              && |q| == |path| + 1 && q[..|path|] == path && q[|path|] in ks
              && OnlyUnder(objs, prev, next, q[|path|..])
    decreases |ks|
  {
    if ks != [] {
      var key := ks[|ks| - 1];
      GoneKeysSound(objs, prev, next, path, ks[..|ks| - 1]);
      if key !in objs[next].props {
        var q := path + [key];
        assert q[..|path|] == path && q[|path|..] == [key];
        GetOneKey(objs, prev, key);
        GetOneKey(objs, next, key);
      }
    }
  }

  // ---------------------------------------------------------- completeness

  /** The first loop keeps everything one of its passes pushes. */
  lemma {:induction false} NextKeysHas(objs: seq<Obj>, prev: nat, next: nat, path: Path, ks: seq<string>, key: string)
    requires Diffable(objs, prev, next) && key in ks
    ensures forall q | q in KeyDiff(objs, prev, next, path, key).added :: q in NextKeysDiff(objs, prev, next, path, ks).added
    ensures forall q | q in KeyDiff(objs, prev, next, path, key).removed :: q in NextKeysDiff(objs, prev, next, path, ks).removed
    decreases |ks|
  {
    if ks[|ks| - 1] != key {
      assert key in ks[..|ks| - 1] by {
        var i :| 0 <= i < |ks| && ks[i] == key;
        assert ks[..|ks| - 1][i] == key;
      }
      NextKeysHas(objs, prev, next, path, ks[..|ks| - 1], key);
    }
  }

  /** The second loop reports every key of `ks` missing from `next`. */
  lemma {:induction false} GoneKeysHas(path: Path, ks: seq<string>, next: Obj, key: string)
    requires key in ks && key !in next.props
    ensures path + [key] in GoneKeys(path, ks, next)
    decreases |ks|
  {
    if ks[|ks| - 1] != key {
      assert key in ks[..|ks| - 1] by {
        var i :| 0 <= i < |ks| && ks[i] == key;
        assert ks[..|ks| - 1][i] == key;
      }
      GoneKeysHas(path, ks[..|ks| - 1], next, key);
    }
  }

  /** Every key path that exists under `next` and not under `prev` is reported
      as added. */
  lemma {:induction false} AddedComplete(objs: seq<Obj>, prev: nat, next: nat, path: Path, rest: Path)
    requires Diffable(objs, prev, next) && OnlyUnder(objs, next, prev, rest)
    ensures path + rest in DeepDiffOf(objs, prev, next, path).added
    decreases |rest|
  {
    OnlyUnderSplit(objs, next, prev, rest);
    var key := rest[0];
    assert key in objs[next].keys;
    NextKeysHas(objs, prev, next, path, objs[next].keys, key);
    var own: seq<Path> := if key !in objs[prev].props then [path + [key]] else [];
    if |rest| == 1 {
      assert path + rest == path + [key] && path + [key] in own;
      assert KeyDiff(objs, prev, next, path, key).added[..|own|] == own;
    } else {
      var pa := objs[prev].props[key].addr;
      var na := objs[next].props[key].addr;
      AddedComplete(objs, pa, na, path + [key], rest[1..]);
      assert path + [key] + rest[1..] == path + rest;
      var nested := DeepDiffOf(objs, pa, na, path + [key]);
      assert KeyDiff(objs, prev, next, path, key) == DeepDiff(own + nested.added, nested.removed);
    }
  }

  /** Every key path that exists under `prev` and not under `next` is reported
      as removed. */
  lemma {:induction false} RemovedComplete(objs: seq<Obj>, prev: nat, next: nat, path: Path, rest: Path)
    requires Diffable(objs, prev, next) && OnlyUnder(objs, prev, next, rest)
    ensures path + rest in DeepDiffOf(objs, prev, next, path).removed
    decreases |rest|
  {
    OnlyUnderSplit(objs, prev, next, rest);
    var key := rest[0];
    if |rest| == 1 {
      assert key in objs[prev].keys;
      assert path + rest == path + [key];
      GoneKeysHas(path, objs[prev].keys, objs[next], key);
    } else {
      assert key in objs[next].keys;
      NextKeysHas(objs, prev, next, path, objs[next].keys, key);
      var pa := objs[prev].props[key].addr;
      var na := objs[next].props[key].addr;
      RemovedComplete(objs, pa, na, path + [key], rest[1..]);
      assert path + [key] + rest[1..] == path + rest;
      var own: seq<Path> := if key !in objs[prev].props then [path + [key]] else [];
      var nested := DeepDiffOf(objs, pa, na, path + [key]);
      assert KeyDiff(objs, prev, next, path, key) == DeepDiff(own + nested.added, nested.removed);
    }
  }

  // ------------------------------------------------------------- the theorem

  /** `createDeepDiff(prev, next, path)` reports exactly the key paths below
      `path` that exist under one document and not under the other, where
      every key before the last holds an object on both sides: in `added`
      those of `next`, in `removed` those of `prev`. */
  lemma DeepDiffExact(objs: seq<Obj>, prev: nat, next: nat, path: Path, q: Path)
    requires Diffable(objs, prev, next)
    ensures q in DeepDiffOf(objs, prev, next, path).added <==>
              |q| > |path| && q[..|path|] == path && OnlyUnder(objs, next, prev, q[|path|..])
    ensures q in DeepDiffOf(objs, prev, next, path).removed <==>
              |q| > |path| && q[..|path|] == path && OnlyUnder(objs, prev, next, q[|path|..])
  {
    DeepDiffSound(objs, prev, next, path);
    if |q| > |path| && q[..|path|] == path {
      assert path + q[|path|..] == q;
      if OnlyUnder(objs, next, prev, q[|path|..]) {
        AddedComplete(objs, prev, next, path, q[|path|..]);
      }
      if OnlyUnder(objs, prev, next, q[|path|..]) {
        RemovedComplete(objs, prev, next, path, q[|path|..]);
      }
    }
  }

  /** No key path is reported both as added and as removed. */
  lemma DeepDiffDisjoint(objs: seq<Obj>, prev: nat, next: nat, path: Path)
    requires Diffable(objs, prev, next)
    ensures forall q | q in DeepDiffOf(objs, prev, next, path).added :: q !in DeepDiffOf(objs, prev, next, path).removed
  {
    DeepDiffSound(objs, prev, next, path);
  }

  /** A document compared with itself has no differences. */
  lemma {:induction false} DeepDiffOfSelf(objs: seq<Obj>, a: nat, path: Path)
    requires Diffable(objs, a, a)
    ensures DeepDiffOf(objs, a, a, path) == DeepDiff([], [])
    decreases Depth(objs, a, a), 2
  {
    NextKeysOfSelf(objs, a, path, objs[a].keys);
    GoneKeysOfSelf(path, objs[a].keys, objs[a]);
  }

  /** The first loop finds nothing when an object is compared with itself. */
  lemma {:induction false} NextKeysOfSelf(objs: seq<Obj>, a: nat, path: Path, ks: seq<string>)
    requires Diffable(objs, a, a) && forall k | k in ks :: k in objs[a].props
    ensures NextKeysDiff(objs, a, a, path, ks) == DeepDiff([], [])
    decreases Depth(objs, a, a), 1, |ks|
  {
    if ks != [] {
      NextKeysOfSelf(objs, a, path, ks[..|ks| - 1]);
      var key := ks[|ks| - 1];
      var c := objs[a].props[key];
      if c.Ref? {
        DeepDiffOfSelf(objs, c.addr, path + [key]);
      }
    }
  }

  /** The second loop finds nothing when every key it visits is present. */
  lemma {:induction false} GoneKeysOfSelf(path: Path, ks: seq<string>, o: Obj)
    requires forall k | k in ks :: k in o.props
    ensures GoneKeys(path, ks, o) == []
    decreases |ks|
  {
    if ks != [] {
      GoneKeysOfSelf(path, ks[..|ks| - 1], o);
    }
  }

  /** A key both documents have, where the two values are not both objects,
      is never reported, nor is anything below it: the values are not
      compared. */
  lemma SharedScalarNotReported(objs: seq<Obj>, prev: nat, next: nat, path: Path, key: string)
    requires Diffable(objs, prev, next)
    requires key in objs[prev].props && key in objs[next].props
    requires !(objs[prev].props[key].Ref? && objs[next].props[key].Ref?)
    ensures forall q | q in DeepDiffOf(objs, prev, next, path).added :: !(|q| > |path| && q[|path|] == key)
    ensures forall q | q in DeepDiffOf(objs, prev, next, path).removed :: !(|q| > |path| && q[|path|] == key)
  {
    var d := DeepDiffOf(objs, prev, next, path);
    DeepDiffSound(objs, prev, next, path);
    forall q | q in d.added ensures !(|q| > |path| && q[|path|] == key) {
      OnlyUnderSplit(objs, next, prev, q[|path|..]);
    }
    forall q | q in d.removed ensures !(|q| > |path| && q[|path|] == key) {
      OnlyUnderSplit(objs, prev, next, q[|path|..]);
    }
  }

  // ------------------------------------------------- each path listed once

  /** Two duplicate-free lists with no path in common concatenate to one. */
  lemma DistinctConcat(xs: seq<Path>, ys: seq<Path>)
    requires Distinct(xs) && Distinct(ys) && forall q | q in xs :: q !in ys
    ensures Distinct(xs + ys)
  {
    forall i, j | 0 <= i < j < |xs + ys| ensures (xs + ys)[i] != (xs + ys)[j] {
      if j >= |xs| && i < |xs| {
        assert (xs + ys)[i] == xs[i] && (xs + ys)[j] == ys[j - |xs|];
        assert ys[j - |xs|] in ys;
      }
    }
  }

  /** `createDeepDiff` lists every path at most once, in `added` and in
      `removed`. */
  lemma {:induction false} DeepDiffNoDuplicates(objs: seq<Obj>, prev: nat, next: nat, path: Path)
    requires Diffable(objs, prev, next)
    ensures Distinct(DeepDiffOf(objs, prev, next, path).added)
    ensures Distinct(DeepDiffOf(objs, prev, next, path).removed)
    decreases Depth(objs, prev, next), 2
  {
    var ks := objs[next].keys;
    assert forall k | k in ks :: k in objs[next].props;
    NextKeysNoDuplicates(objs, prev, next, path, ks);
    NextKeysSound(objs, prev, next, path, ks);
    GoneKeysNoDuplicates(path, objs[prev].keys, objs[next]);
    GoneKeysSound(objs, prev, next, path, objs[prev].keys);
    var d := NextKeysDiff(objs, prev, next, path, ks);
    var g := GoneKeys(path, objs[prev].keys, objs[next]);
    assert forall q | q in d.removed :: q !in g;
    DistinctConcat(d.removed, g);
  }

  /** The first loop lists every path once, for distinct keys. */
  lemma {:induction false} NextKeysNoDuplicates(objs: seq<Obj>, prev: nat, next: nat, path: Path, ks: seq<string>)
    requires Diffable(objs, prev, next) && Distinct(ks) && forall k | k in ks :: k in objs[next].props
    ensures Distinct(NextKeysDiff(objs, prev, next, path, ks).added)
    ensures Distinct(NextKeysDiff(objs, prev, next, path, ks).removed)
    decreases Depth(objs, prev, next), 1, |ks|
  {
    if ks != [] {
      var init := ks[..|ks| - 1];
      var key := ks[|ks| - 1];
      NextKeysNoDuplicates(objs, prev, next, path, init);
      NextKeysSound(objs, prev, next, path, init);
      KeyDiffNoDuplicates(objs, prev, next, path, key);
      KeyDiffSound(objs, prev, next, path, key);
      assert key !in init;
      var d := NextKeysDiff(objs, prev, next, path, init);
      var k := KeyDiff(objs, prev, next, path, key);
      DistinctConcat(d.added, k.added);
      DistinctConcat(d.removed, k.removed);
    }
  }

  /** One pass of the first loop lists every path once. */
  lemma {:induction false} KeyDiffNoDuplicates(objs: seq<Obj>, prev: nat, next: nat, path: Path, key: string)
    requires Diffable(objs, prev, next) && key in objs[next].props
    ensures Distinct(KeyDiff(objs, prev, next, path, key).added)
    ensures Distinct(KeyDiff(objs, prev, next, path, key).removed)
    decreases Depth(objs, prev, next), 0
  {
    var own: seq<Path> := if key !in objs[prev].props then [path + [key]] else [];
    var p := Prop(objs[prev], key);
    var n := Prop(objs[next], key);
    if IsObject(p) && IsObject(n) {
      var path' := path + [key];
      DeepDiffNoDuplicates(objs, p.v.addr, n.v.addr, path');
      DeepDiffSound(objs, p.v.addr, n.v.addr, path');
      var nested := DeepDiffOf(objs, p.v.addr, n.v.addr, path');
      assert forall q | q in nested.added :: |q| > |path'|;
      DistinctConcat(own, nested.added);
      assert KeyDiff(objs, prev, next, path, key) == DeepDiff(own + nested.added, nested.removed);
    }
  }

  /** The second loop lists every path once, for distinct keys. */
  lemma {:induction false} GoneKeysNoDuplicates(path: Path, ks: seq<string>, next: Obj)
    requires Distinct(ks)
    ensures Distinct(GoneKeys(path, ks, next))
    ensures forall q | q in GoneKeys(path, ks, next) :: |q| == |path| + 1 && q[|path|] in ks
    decreases |ks|
  {
    if ks != [] {
      var init := ks[..|ks| - 1];
      var key := ks[|ks| - 1];
      GoneKeysNoDuplicates(path, init, next);
      assert key !in init;
      var own: seq<Path> := if key !in next.props then [path + [key]] else [];
      assert forall q | q in GoneKeys(path, init, next) :: q !in own;
      DistinctConcat(GoneKeys(path, init, next), own);
    }
  }

  // ------------------------------------------------ against an empty object

  /** The one-key paths `path + [k]` for the keys `ks`, in order. */
  function Prefixed(path: Path, ks: seq<string>): (r: seq<Path>)
    ensures |r| == |ks| && forall i | 0 <= i < |ks| :: r[i] == path + [ks[i]]
  {
    if ks == [] then [] else Prefixed(path, ks[..|ks| - 1]) + [path + [ks[|ks| - 1]]]
  }

  /** Diffing from `{}` lists the top-level keys of `next` as added, in
      `Object.keys` order, and nothing below them: no object of `prev` is
      there to descend into. */
  lemma {:induction false} DiffFromEmpty(objs: seq<Obj>, prev: nat, next: nat, path: Path)
    requires Diffable(objs, prev, next) && objs[prev].keys == []
    ensures DeepDiffOf(objs, prev, next, path) == DeepDiff(Prefixed(path, objs[next].keys), [])
  {
    assert objs[prev].props == map[];
    FromEmptyKeys(objs, prev, next, path, objs[next].keys);
  }

  lemma {:induction false} FromEmptyKeys(objs: seq<Obj>, prev: nat, next: nat, path: Path, ks: seq<string>)
    requires Diffable(objs, prev, next) && objs[prev].props == map[]
    ensures NextKeysDiff(objs, prev, next, path, ks) == DeepDiff(Prefixed(path, ks), [])
    decreases |ks|
  {
    if ks != [] {
      FromEmptyKeys(objs, prev, next, path, ks[..|ks| - 1]);
    }
  }

  /** Diffing to `{}` lists the top-level keys of `prev` as removed, in
      `Object.keys` order, and nothing below them. */
  lemma {:induction false} DiffToEmpty(objs: seq<Obj>, prev: nat, next: nat, path: Path)
    requires Diffable(objs, prev, next) && objs[next].keys == []
    ensures DeepDiffOf(objs, prev, next, path) == DeepDiff([], Prefixed(path, objs[prev].keys))
  {
    assert objs[next].props == map[];
    ToEmptyKeys(path, objs[prev].keys, objs[next]);
  }

  lemma {:induction false} ToEmptyKeys(path: Path, ks: seq<string>, next: Obj)
    requires next.props == map[]
    ensures GoneKeys(path, ks, next) == Prefixed(path, ks)
    decreases |ks|
  {
    if ks != [] {
      ToEmptyKeys(path, ks[..|ks| - 1], next);
    }
  }

  // ------------------------------------------------------------------ order

  /** The position of `k` in the key list `ks`: its first occurrence. */
  function IndexOf(ks: seq<string>, k: string): (r: nat)
    requires k in ks
    ensures r < |ks| && ks[r] == k && forall x | 0 <= x < r :: ks[x] != k
  {
    if ks[0] == k then 0
    else
      assert k in ks[1..];
      var r' := IndexOf(ks[1..], k);
      assert forall x | 1 <= x < r' + 1 :: ks[x] == ks[1..][x - 1];
      r' + 1
  }

  /** A key's position is the same in a prefix of the key list that holds it. */
  lemma IndexOfPrefix(ks: seq<string>, n: nat, k: string)
    requires n <= |ks| && k in ks[..n]
    ensures IndexOf(ks[..n], k) == IndexOf(ks, k)
  {
    var r1 := IndexOf(ks[..n], k);
    assert forall x | 0 <= x <= r1 :: ks[..n][x] == ks[x];
  }

  /** Every path of `qs` continues `path` with a key of `ks`, and those keys
      come in the order of `ks`: the paths below one key stay together, and
      the groups follow `ks`. */
  ghost predicate FollowsKeys(qs: seq<Path>, path: Path, ks: seq<string>) {
    && (forall q | q in qs :: |q| > |path| && q[|path|] in ks)
    && (forall i, j | 0 <= i < j < |qs| :: IndexOf(ks, qs[i][|path|]) <= IndexOf(ks, qs[j][|path|]))
  }

  /** Paths below the keys of `ks` but its last, in order, followed by paths
      below its last key, are still in order. */
  lemma FollowsKeysConcat(xs: seq<Path>, ys: seq<Path>, path: Path, ks: seq<string>)
    requires Distinct(ks) && ks != []
    requires FollowsKeys(xs, path, ks[..|ks| - 1])
    requires forall q | q in ys :: |q| > |path| && q[|path|] == ks[|ks| - 1]
    ensures FollowsKeys(xs + ys, path, ks)
  {
    var n := |ks| - 1;
    var last := ks[n];
    assert IndexOf(ks, last) == n;
    forall x | x in ks[..n]
      ensures x in ks && IndexOf(ks[..n], x) == IndexOf(ks, x) && IndexOf(ks, x) < n
    {
      IndexOfPrefix(ks, n, x);
    }
    var qs := xs + ys;
    forall i, j | 0 <= i < j < |qs|
      ensures IndexOf(ks, qs[i][|path|]) <= IndexOf(ks, qs[j][|path|])
    {
      if j < |xs| {
        assert qs[i] == xs[i] && qs[j] == xs[j];
      } else if i >= |xs| {
        assert qs[i] == ys[i - |xs|] && qs[j] == ys[j - |xs|];
      } else {
        assert qs[i] == xs[i] && qs[j] == ys[j - |xs|];
      }
    }
  }

  /** The first loop reports in the order of the keys it visits: what it
      finds below an earlier key comes before what it finds below a later
      one, in `added` and in `removed` alike. */
  lemma {:induction false} NextKeysOrder(objs: seq<Obj>, prev: nat, next: nat, path: Path, ks: seq<string>)
    requires Diffable(objs, prev, next) && Distinct(ks) && forall k | k in ks :: k in objs[next].props
    ensures FollowsKeys(NextKeysDiff(objs, prev, next, path, ks).added, path, ks)
    ensures FollowsKeys(NextKeysDiff(objs, prev, next, path, ks).removed, path, ks)
    decreases |ks|
  {
    if ks != [] {
      var init := ks[..|ks| - 1];
      var key := ks[|ks| - 1];
      NextKeysOrder(objs, prev, next, path, init);
      KeyDiffSound(objs, prev, next, path, key);
      var d := NextKeysDiff(objs, prev, next, path, init);
      var k := KeyDiff(objs, prev, next, path, key);
      FollowsKeysConcat(d.added, k.added, path, ks);
      FollowsKeysConcat(d.removed, k.removed, path, ks);
    }
  }

  /** The second loop reports in the order of the keys it visits. */
  lemma {:induction false} GoneKeysOrder(path: Path, ks: seq<string>, next: Obj)
    requires Distinct(ks)
    ensures FollowsKeys(GoneKeys(path, ks, next), path, ks)
    decreases |ks|
  {
    if ks != [] {
      var init := ks[..|ks| - 1];
      var key := ks[|ks| - 1];
      GoneKeysOrder(path, init, next);
      var own: seq<Path> := if key !in next.props then [path + [key]] else [];
      assert forall q | q in own :: |q| > |path| && q[|path|] == key;
      FollowsKeysConcat(GoneKeys(path, init, next), own, path, ks);
    }
  }

  /** The order of `added`: grouped by their first key below `path`, the
      groups in the `Object.keys` order of `next`. */
  lemma AddedOrder(objs: seq<Obj>, prev: nat, next: nat, path: Path)
    requires Diffable(objs, prev, next)
    ensures FollowsKeys(DeepDiffOf(objs, prev, next, path).added, path, objs[next].keys)
  {
    NextKeysOrder(objs, prev, next, path, objs[next].keys);
  }

  /** The order of `removed`: first the paths found below shared objects, in
      the `Object.keys` order of `next`; then the top-level keys `next`
      lacks, in the `Object.keys` order of `prev`. */
  lemma RemovedOrder(objs: seq<Obj>, prev: nat, next: nat, path: Path)
    requires Diffable(objs, prev, next)
    ensures var r := DeepDiffOf(objs, prev, next, path).removed;
            exists m | 0 <= m <= |r| ::
              && (forall q | q in r[..m] :: |q| > |path| + 1)
              && (forall q | q in r[m..] :: |q| == |path| + 1)
              && FollowsKeys(r[..m], path, objs[next].keys)
              && FollowsKeys(r[m..], path, objs[prev].keys)
  {
    var ks := objs[next].keys;
    var d := NextKeysDiff(objs, prev, next, path, ks);
    var g := GoneKeys(path, objs[prev].keys, objs[next]);
    RemovedParts(objs, prev, next, path);
    var r := d.removed + g;
    var m := |d.removed|;
    assert r[..m] == d.removed && r[m..] == g;
    assert DeepDiffOf(objs, prev, next, path).removed == r;
  }

  /** The two parts of `removed`, one from each loop, and their order. */
  lemma RemovedParts(objs: seq<Obj>, prev: nat, next: nat, path: Path)
    requires Diffable(objs, prev, next)
    ensures var d := NextKeysDiff(objs, prev, next, path, objs[next].keys);
            && (forall q | q in d.removed :: |q| > |path| + 1)
            && FollowsKeys(d.removed, path, objs[next].keys)
    ensures var g := GoneKeys(path, objs[prev].keys, objs[next]);
            && (forall q | q in g :: |q| == |path| + 1)
            && FollowsKeys(g, path, objs[prev].keys)
  {
    var ks := objs[next].keys;
    assert forall k | k in ks :: k in objs[next].props;
    NextKeysOrder(objs, prev, next, path, ks);
    NextKeysSound(objs, prev, next, path, ks);
    GoneKeysOrder(path, objs[prev].keys, objs[next]);
    GoneKeysNoDuplicates(path, objs[prev].keys, objs[next]);
  }
}

=== FILE: get_in.dfy ===
/** Path addressing over the JavaScript heap (src/utils/get_in.ts): `getIn`
    reads the value at a key path, `setIn` writes one, creating `{}` for every
    missing intermediate key.

    Both utilities test keys with the `in` operator, which throws a TypeError
    when its right operand is a primitive; `setIn` also assigns a property,
    which in strict mode (the file is an ES module) throws a TypeError when the
    target is a primitive.  These throws are modelled as `TypeError`.
 */
module GetIn {
  import opened JsHeap

  /** The loop of `getIn` (src/utils/get_in.ts:9-15), from the cursor
      `current` over the keys of `path`: a falsy cursor ends the walk with
      `undefined`, a truthy primitive makes `key in current` throw, and a
      missing key ends the walk with `undefined`. */
  function Walk(objs: seq<Obj>, current: Value, path: Path): (r: Completion<Read>)
    requires Closed(objs) && RefIn(current, |objs|)
    ensures r.Normal? && r.result.Defined? ==> RefIn(r.result.v, |objs|)
    decreases |path|
  {
    if path == [] then Normal(Defined(current))
    else if !Truthy(current) then Normal(Undefined)
    else if current.Prim? then TypeError
    else
      match Prop(objs[current.addr], path[0])
      case Undefined => Normal(Undefined)
      case Defined(child) => Walk(objs, child, path[1..])
  }

  /** `getIn(obj, path)` (src/utils/get_in.ts:2-18): `undefined` for a falsy
      root or an empty path, otherwise the walk along `path`. */
  function Get(objs: seq<Obj>, obj: Value, path: Path): (r: Completion<Read>)
    requires Closed(objs) && RefIn(obj, |objs|)
    ensures r.Normal? && r.result.Defined? ==> path != [] && RefIn(r.result.v, |objs|)
    ensures r.TypeError? ==> Truthy(obj) && path != []
  {
    if !Truthy(obj) || path == [] then Normal(Undefined)
    else Walk(objs, obj, path)
  }

  /** `getIn` as the source runs it: a cursor moved along the path by a loop. */
  method GetIn(h: Heap, obj: Value, path: Path) returns (r: Completion<Read>)
    requires h.Valid() && RefIn(obj, |h.objs|)
    ensures r == Get(h.objs, obj, path)
  {
    if !Truthy(obj) || |path| == 0 {
      return Normal(Undefined);
    }
    var current := obj;
    for i := 0 to |path|
      invariant RefIn(current, |h.objs|)
      invariant Walk(h.objs, current, path[i..]) == Walk(h.objs, obj, path)
    {
      if !Truthy(current) {
        return Normal(Undefined);
      }
      if current.Prim? {
        return TypeError;
      }
      var key := path[i];
      var o := h.objs[current.addr];
      if key in o.props {
        current := o.props[key];
      } else {
        return Normal(Undefined);
      }
    }
    assert path[|path|..] == [];
    return Normal(Defined(current));
  }

  /** What the loop of `setIn` and its final assignment (src/utils/get_in.ts:28-36)
      do to the heap, from the cursor `current` with the keys `path` still to
      go: for every key but the last, a missing key gets a fresh `{}` and the
      cursor moves into the key's value; the last key is assigned `value`.
      A primitive cursor throws, whether at `key in current` or at the
      assignment.  The result is the new heap. */
  function SetFrom(objs: seq<Obj>, current: Value, path: Path, value: Value): (r: Completion<seq<Obj>>)
    requires Closed(objs) && RefIn(current, |objs|) && RefIn(value, |objs|) && |path| >= 1
    ensures r.Normal? ==> Closed(r.result) && |r.result| >= |objs|
    decreases |path|
  {
    if current.Prim? then TypeError
    else if |path| == 1 then
      Normal(objs[current.addr := Assign(objs[current.addr], path[0], value)])
    else
      var o := objs[current.addr];
      if path[0] in o.props then
        SetFrom(objs, o.props[path[0]], path[1..], value)
      else
        var created := |objs|;
        var objs' := objs[current.addr := Assign(o, path[0], Ref(created))] + [EmptyObj];
        SetFrom(objs', Ref(created), path[1..], value)
  }

  /** `setIn(obj, path, value)` (src/utils/get_in.ts:21-39) on the heap: nothing
      changes for a falsy root or an empty path. */
  function Set(objs: seq<Obj>, obj: Value, path: Path, value: Value): (r: Completion<seq<Obj>>)
    requires Closed(objs) && RefIn(obj, |objs|) && RefIn(value, |objs|)
    ensures r.Normal? ==> Closed(r.result) && |r.result| >= |objs|
  {
    if !Truthy(obj) || path == [] then Normal(objs)
    else SetFrom(objs, obj, path, value)
  }

  /** `setIn` as the source runs it: the objects of `h` are updated in place,
      and the root handle it was given is returned.  A throw leaves the heap
      as it was, because every key that is missing sends the walk into a fresh
      empty object, where no later step can throw. */
  method SetIn(h: Heap, obj: Value, path: Path, value: Value) returns (r: Completion<Value>)
    requires h.Valid() && RefIn(obj, |h.objs|) && RefIn(value, |h.objs|)
    modifies h
    ensures h.Valid()
    ensures Set(old(h.objs), obj, path, value).Normal? ==>
              r == Normal(obj) && h.objs == Set(old(h.objs), obj, path, value).result
    ensures Set(old(h.objs), obj, path, value).TypeError? ==>
              r == TypeError && h.objs == old(h.objs)
  {
    if !Truthy(obj) || |path| == 0 {
      return Normal(obj);
    }
    var current := obj;
    var i := 0;
    ghost var mutated := false;
    while i < |path| - 1
      invariant 0 <= i <= |path| - 1
      invariant Closed(h.objs) && RefIn(current, |h.objs|) && RefIn(value, |h.objs|)
      invariant SetFrom(h.objs, current, path[i..], value) == SetFrom(old(h.objs), obj, path, value)
      invariant !mutated ==> h.objs == old(h.objs)
      invariant mutated ==> current.Ref? && current.addr == |h.objs| - 1 && h.objs[current.addr] == EmptyObj
    {
      if current.Prim? {
        return TypeError;
      }
      var key := path[i];
      var o := h.objs[current.addr];
      assert path[i..][1..] == path[i + 1..];
      SetFromStep(h.objs, current, path[i..], value);
      if key !in o.props {
        var created := |h.objs|;
        h.objs := h.objs[current.addr := Assign(o, key, Ref(created))] + [EmptyObj];
        current := Ref(created);
        mutated := true;
      } else {
        current := o.props[key];
      }
      i := i + 1;
    }
    if current.Prim? {
      return TypeError;
    }
    AssignKeepsClosed(h.objs, current.addr, path[|path| - 1], value);
    h.objs := h.objs[current.addr := Assign(h.objs[current.addr], path[|path| - 1], value)];
    return Normal(obj);
  }

  lemma AssignKeepsClosed(objs: seq<Obj>, a: nat, k: string, v: Value)
    requires Closed(objs) && a < |objs| && RefIn(v, |objs|)
    ensures Closed(objs[a := Assign(objs[a], k, v)])
  {
  }

  /** One step of the loop of `setIn`: the remaining work after moving the
      cursor, in a heap where the key got a fresh `{}` if it was missing. */
  lemma SetFromStep(objs: seq<Obj>, current: Value, path: Path, value: Value)
    requires Closed(objs) && current.Ref? && current.addr < |objs| && RefIn(value, |objs|) && |path| >= 2
    ensures path[0] in objs[current.addr].props ==>
              SetFrom(objs, current, path, value) == SetFrom(objs, objs[current.addr].props[path[0]], path[1..], value)
    ensures path[0] !in objs[current.addr].props ==>
              var objs' := objs[current.addr := Assign(objs[current.addr], path[0], Ref(|objs|))] + [EmptyObj];
              Closed(objs') && SetFrom(objs, current, path, value) == SetFrom(objs', Ref(|objs|), path[1..], value)
  {
  }
}

=== FILE: get_in_properties.dfy ===
/** What `getIn` and `setIn` (src/utils/get_in.ts) promise, proved about
    their models `GetIn.Get` and `GetIn.Set`. */
module GetInProperties {
  import opened JsHeap
  import opened GetIn

  /** The walk along `path` from `current` ends at a primitive (possibly a falsy one). */
  ghost predicate WalkEndsInPrimitive(objs: seq<Obj>, current: Value, path: Path)
    requires Closed(objs) && RefIn(current, |objs|)
  {
    var w := Walk(objs, current, path);
    w.Normal? && w.result.Defined? && w.result.v.Prim?
  }

  // ---------------------------------------------------------------- getIn

  /** `getIn` gives `undefined` for an empty path and for a falsy root,
      whatever else it is given. */
  lemma GetUndefinedAtRoot(objs: seq<Obj>, obj: Value, path: Path)
    requires Closed(objs) && RefIn(obj, |objs|)
    requires path == [] || !Truthy(obj)
    ensures Get(objs, obj, path) == Normal(Undefined)
  {
  }

  /** Walking `p + q` is walking `p`, then walking `q` from where `p` ended;
      a walk that stopped (`undefined` or a throw) stays stopped. */
  lemma {:induction false} WalkAppend(objs: seq<Obj>, current: Value, p: Path, q: Path)
    requires Closed(objs) && RefIn(current, |objs|)
    ensures Walk(objs, current, p + q) ==
              match Walk(objs, current, p)
              case Normal(Defined(v)) => Walk(objs, v, q)
              case other => other
    decreases |p|
  {
    if p != [] && Truthy(current) && current.Ref? {
      assert (p + q)[0] == p[0] && (p + q)[1..] == p[1..] + q;
      match Prop(objs[current.addr], p[0])
      case Undefined =>
      case Defined(child) => WalkAppend(objs, child, p[1..], q);
    } else if p == [] {
      assert p + q == q;
    }
  }

  /** Looking up one more key: `getIn(obj, p + [k])` is the value at `k` of the
      object `getIn(obj, p)`; it is `undefined` once `getIn(obj, p)` is, and
      also when that value is a falsy primitive; it throws when that value is
      a truthy primitive, or when the lookup of `p` already threw. */
  lemma GetExtend(objs: seq<Obj>, obj: Value, p: Path, k: string)
    requires Closed(objs) && RefIn(obj, |objs|) && p != []
    ensures var g := Get(objs, obj, p);
            Get(objs, obj, p + [k]) ==
              if g.TypeError? then TypeError
              else if g.result.Undefined? then Normal(Undefined)
              else if g.result.v.Ref? then Normal(Prop(objs[g.result.v.addr], k))
              else if Truthy(g.result.v) then TypeError
              else Normal(Undefined)
  {
    WalkAppend(objs, obj, p, [k]);
    var g := Get(objs, obj, p);
    if g.Normal? && g.result.Defined? {
      assert [k][1..] == [];
    }
  }

  /** A path of one key reads that key of the root object. */
  lemma GetOneKey(objs: seq<Obj>, a: nat, k: string)
    requires Closed(objs) && a < |objs|
    ensures Get(objs, Ref(a), [k]) == Normal(Prop(objs[a], k))
  {
    assert [k][1..] == [];
    match Prop(objs[a], k)
    case Undefined =>
    case Defined(child) => assert Walk(objs, child, []) == Normal(Defined(child));
  }

  // ---------------------------------------------------------------- setIn

  /** `setIn` changes nothing for an empty path or a falsy root. */
  lemma SetNoOp(objs: seq<Obj>, obj: Value, path: Path, value: Value)
    requires Closed(objs) && RefIn(obj, |objs|) && RefIn(value, |objs|)
    requires path == [] || !Truthy(obj)
    ensures Set(objs, obj, path, value) == Normal(objs)
  {
  }

  /** Starting from an empty object, `setIn` never throws: every later key
      is missing and gets a fresh `{}`. */
  lemma {:induction false} SetFromEmptyNeverThrows(objs: seq<Obj>, a: nat, path: Path, value: Value)
    requires Closed(objs) && a < |objs| && objs[a] == EmptyObj && RefIn(value, |objs|) && |path| >= 1
    ensures SetFrom(objs, Ref(a), path, value).Normal?
    decreases |path|
  {
    if |path| > 1 {
      SetFromStep(objs, Ref(a), path, value);
      var objs' := objs[a := Assign(objs[a], path[0], Ref(|objs|))] + [EmptyObj];
      SetFromEmptyNeverThrows(objs', |objs|, path[1..], value);
    }
  }

  /** The walk-level form of `SetThrowsIff`. */
  lemma {:induction false} SetFromThrowsIff(objs: seq<Obj>, current: Value, path: Path, value: Value)
    requires Closed(objs) && RefIn(current, |objs|) && RefIn(value, |objs|) && |path| >= 1
    ensures SetFrom(objs, current, path, value).TypeError? <==>
              current.Prim? ||
              exists j :: 1 <= j < |path| && WalkEndsInPrimitive(objs, current, path[..j])
    decreases |path|
  {
    if current.Ref? && |path| > 1 {
      var o := objs[current.addr];
      SetFromStep(objs, current, path, value);
      if path[0] in o.props {
        var child := o.props[path[0]];
        SetFromThrowsIff(objs, child, path[1..], value);
        forall j | 1 <= j < |path|
          ensures WalkEndsInPrimitive(objs, current, path[..j]) <==>
                    if j == 1 then child.Prim? else WalkEndsInPrimitive(objs, child, path[1..][..j - 1])
        {
          assert path[..j][0] == path[0] && path[..j][1..] == path[1..][..j - 1];
          assert Walk(objs, current, path[..j]) == Walk(objs, child, path[1..][..j - 1]);
          if j == 1 {
            assert path[1..][..0] == [];
          }
        }
        if SetFrom(objs, current, path, value).TypeError? {
          if !child.Prim? {
            var j' :| 1 <= j' < |path| - 1 && WalkEndsInPrimitive(objs, child, path[1..][..j']);
            assert WalkEndsInPrimitive(objs, current, path[..j' + 1]);
          } else {
            assert WalkEndsInPrimitive(objs, current, path[..1]);
          }
        } else {
          forall j | 1 <= j < |path|
            ensures !WalkEndsInPrimitive(objs, current, path[..j])
          {
            if j > 1 {
              assert !WalkEndsInPrimitive(objs, child, path[1..][..j - 1]);
            }
          }
        }
      } else {
        SetFromEmptyNeverThrows(objs[current.addr := Assign(o, path[0], Ref(|objs|))] + [EmptyObj],
                                |objs|, path[1..], value);
        forall j | 1 <= j < |path|
          ensures !WalkEndsInPrimitive(objs, current, path[..j])
        {
          assert path[..j][0] == path[0];
        }
      }
    }
  }

  /** `setIn` on a truthy root and a non-empty path throws exactly when the
      root or an intermediate that already exists is a primitive (`null`,
      `""` and other falsy ones included); the value found at the full path
      does not matter, since it is overwritten. */
  lemma SetThrowsIff(objs: seq<Obj>, obj: Value, path: Path, value: Value)
    requires Closed(objs) && RefIn(obj, |objs|) && RefIn(value, |objs|)
    requires Truthy(obj) && path != []
    ensures Set(objs, obj, path, value).TypeError? <==>
              obj.Prim? || exists j :: 1 <= j < |path| && WalkEndsInPrimitive(objs, obj, path[..j])
  {
    SetFromThrowsIff(objs, obj, path, value);
  }

  // ------------------------------------------------ setIn on an acyclic heap

  /** Giving a missing key a fresh `{}` keeps the heap acyclic. */
  lemma CreateKeepsAcyclic(objs: seq<Obj>, a: nat, k: string)
    requires Closed(objs) && Acyclic(objs) && a < |objs|
    ensures Acyclic(objs[a := Assign(objs[a], k, Ref(|objs|))] + [EmptyObj])
  {
  }

  /** `setIn` leaves alone every object numbered before the cursor: on an
      acyclic heap the walk only moves to objects numbered after it. */
  lemma {:induction false} SetFromKeepsBelow(objs: seq<Obj>, c: nat, path: Path, value: Value)
    requires Closed(objs) && Acyclic(objs) && c < |objs| && RefIn(value, |objs|) && |path| >= 1
    requires SetFrom(objs, Ref(c), path, value).Normal?
    ensures forall x | 0 <= x < c :: SetFrom(objs, Ref(c), path, value).result[x] == objs[x]
    decreases |path|
  {
    if |path| > 1 {
      SetFromStep(objs, Ref(c), path, value);
      var o := objs[c];
      if path[0] in o.props {
        SetFromKeepsBelow(objs, o.props[path[0]].addr, path[1..], value);
      } else {
        CreateKeepsAcyclic(objs, c, path[0]);
        var objs' := objs[c := Assign(o, path[0], Ref(|objs|))] + [EmptyObj];
        SetFromKeepsBelow(objs', |objs|, path[1..], value);
      }
    }
  }

  /** The walk-level form of `SetThenGet`. */
  lemma {:induction false} SetFromThenWalk(objs: seq<Obj>, c: nat, path: Path, value: Value)
    requires Closed(objs) && Acyclic(objs) && c < |objs| && RefIn(value, |objs|) && |path| >= 1
    requires SetFrom(objs, Ref(c), path, value).Normal?
    ensures Walk(SetFrom(objs, Ref(c), path, value).result, Ref(c), path) == Normal(Defined(value))
    decreases |path|
  {
    var r := SetFrom(objs, Ref(c), path, value).result;
    if |path| == 1 {
      assert Walk(r, value, path[1..]) == Normal(Defined(value));
    } else {
      SetFromStep(objs, Ref(c), path, value);
      var o := objs[c];
      if path[0] in o.props {
        var d := o.props[path[0]].addr;
        SetFromKeepsBelow(objs, d, path[1..], value);
        SetFromThenWalk(objs, d, path[1..], value);
      } else {
        CreateKeepsAcyclic(objs, c, path[0]);
        var objs' := objs[c := Assign(o, path[0], Ref(|objs|))] + [EmptyObj];
        SetFromKeepsBelow(objs', |objs|, path[1..], value);
        SetFromThenWalk(objs', |objs|, path[1..], value);
      }
    }
  }

  /** Get after set: once `setIn` has completed on an object root and a
      non-empty path, `getIn` at that path gives the value just stored. */
  lemma SetThenGet(objs: seq<Obj>, root: nat, path: Path, value: Value)
    requires Closed(objs) && Acyclic(objs) && root < |objs| && RefIn(value, |objs|) && path != []
    requires Set(objs, Ref(root), path, value).Normal?
    ensures Get(Set(objs, Ref(root), path, value).result, Ref(root), path) == Normal(Defined(value))
  {
    SetFromThenWalk(objs, root, path, value);
  }

  /** Storing a primitive keeps the heap acyclic, so the documents can still be
      diffed afterwards. */
  lemma {:induction false} SetFromKeepsAcyclic(objs: seq<Obj>, current: Value, path: Path, value: Value)
    requires Closed(objs) && Acyclic(objs) && RefIn(current, |objs|) && value.Prim? && |path| >= 1
    requires SetFrom(objs, current, path, value).Normal?
    ensures Acyclic(SetFrom(objs, current, path, value).result)
    decreases |path|
  {
    if |path| > 1 {
      SetFromStep(objs, current, path, value);
      var o := objs[current.addr];
      if path[0] in o.props {
        SetFromKeepsAcyclic(objs, o.props[path[0]], path[1..], value);
      } else {
        CreateKeepsAcyclic(objs, current.addr, path[0]);
        var objs' := objs[current.addr := Assign(o, path[0], Ref(|objs|))] + [EmptyObj];
        SetFromKeepsAcyclic(objs', Ref(|objs|), path[1..], value);
      }
    }
  }

  /** `setIn` of a primitive (the translated strings it is meant for) keeps the
      heap acyclic. */
  lemma SetKeepsAcyclic(objs: seq<Obj>, obj: Value, path: Path, value: Value)
    requires Closed(objs) && Acyclic(objs) && RefIn(obj, |objs|) && value.Prim?
    requires Set(objs, obj, path, value).Normal?
    ensures Acyclic(Set(objs, obj, path, value).result)
  {
    if Truthy(obj) && path != [] {
      SetFromKeepsAcyclic(objs, obj, path, value);
    }
  }

  // ------------------------------------------------------- setIn's frame

  /** Between heaps `objs` and `r`: the objects of `objs` only gained keys,
      appended after their old ones; every old key keeps its value unless it
      is `last` on the object `parent` names; and every new key is `last` on
      that object or holds a freshly created object. */
  ghost predicate OnlyTouches(objs: seq<Obj>, r: seq<Obj>, last: string, parent: Completion<Read>)
  {
    && |r| >= |objs|
    && forall x | 0 <= x < |objs| ::
         && objs[x].keys <= r[x].keys
         && (forall k | k in objs[x].props ::
               && k in r[x].props
               && (r[x].props[k] == objs[x].props[k] || (k == last && parent == Normal(Defined(Ref(x))))))
         && (forall k | k in r[x].props && k !in objs[x].props ::
               || (k == last && parent == Normal(Defined(Ref(x))))
               || (r[x].props[k].Ref? && r[x].props[k].addr >= |objs|))
  }

  /** The final assignment touches only the assigned key. */
  lemma AssignOnlyTouches(objs: seq<Obj>, a: nat, k: string, value: Value)
    requires Closed(objs) && a < |objs|
    ensures OnlyTouches(objs, objs[a := Assign(objs[a], k, value)], k, Normal(Defined(Ref(a))))
  {
  }

  /** Creating `{}` at a missing key, followed by changes that touch no object
      of `objs` through their parent, touches only the fresh key: it holds the
      new object. */
  lemma CreateOnlyTouches(objs: seq<Obj>, a: nat, k: string, r: seq<Obj>, last: string,
                          parent': Completion<Read>, parent: Completion<Read>)
    requires Closed(objs) && a < |objs| && k !in objs[a].props
    requires OnlyTouches(objs[a := Assign(objs[a], k, Ref(|objs|))] + [EmptyObj], r, last, parent')
    requires forall x | 0 <= x < |objs| :: parent' != Normal(Defined(Ref(x)))
    ensures OnlyTouches(objs, r, last, parent)
  {
    var objs' := objs[a := Assign(objs[a], k, Ref(|objs|))] + [EmptyObj];
    forall x | 0 <= x < |objs|
      ensures objs[x].keys <= r[x].keys
    {
      assert objs[x].keys <= objs'[x].keys;
    }
  }

  /** The walk-level form of `SetFrame`. */
  lemma {:induction false} SetFromFrame(objs: seq<Obj>, current: Value, path: Path, value: Value)
    requires Closed(objs) && RefIn(current, |objs|) && RefIn(value, |objs|) && |path| >= 1
    requires SetFrom(objs, current, path, value).Normal?
    ensures OnlyTouches(objs, SetFrom(objs, current, path, value).result, path[|path| - 1],
                        Walk(objs, current, path[..|path| - 1]))
    decreases |path|, 1
  {
    if |path| == 1 {
      assert path[..0] == [];
      AssignOnlyTouches(objs, current.addr, path[0], value);
    } else if path[0] in objs[current.addr].props {
      SetFromFrameDescend(objs, current, path, value);
    } else {
      SetFromFrameCreate(objs, current, path, value);
    }
  }

  /** `SetFromFrame` when the first key exists: the frame of the rest of the walk. */
  lemma {:induction false} SetFromFrameDescend(objs: seq<Obj>, current: Value, path: Path, value: Value)
    requires Closed(objs) && RefIn(current, |objs|) && RefIn(value, |objs|) && |path| >= 2
    requires current.Ref? && path[0] in objs[current.addr].props
    requires SetFrom(objs, current, path, value).Normal?
    ensures OnlyTouches(objs, SetFrom(objs, current, path, value).result, path[|path| - 1],
                        Walk(objs, current, path[..|path| - 1]))
    decreases |path|, 0
  {
    var child := objs[current.addr].props[path[0]];
    var rest := path[1..];
    SetFromStep(objs, current, path, value);
    assert path[..|path| - 1][0] == path[0] && path[..|path| - 1][1..] == rest[..|rest| - 1];
    assert rest[|rest| - 1] == path[|path| - 1];
    assert Walk(objs, current, path[..|path| - 1]) == Walk(objs, child, rest[..|rest| - 1]);
    assert SetFrom(objs, current, path, value) == SetFrom(objs, child, rest, value);
    SetFromFrame(objs, child, rest, value);
  }

  /** `SetFromFrame` when the first key is missing: the new `{}` hangs below
      the cursor and the rest of the walk runs in fresh objects. */
  lemma {:induction false} SetFromFrameCreate(objs: seq<Obj>, current: Value, path: Path, value: Value)
    requires Closed(objs) && RefIn(current, |objs|) && RefIn(value, |objs|) && |path| >= 2
    requires current.Ref? && path[0] !in objs[current.addr].props
    requires SetFrom(objs, current, path, value).Normal?
    ensures OnlyTouches(objs, SetFrom(objs, current, path, value).result, path[|path| - 1],
                        Walk(objs, current, path[..|path| - 1]))
    decreases |path|, 0
  {
    SetFromStep(objs, current, path, value);
    var objs' := objs[current.addr := Assign(objs[current.addr], path[0], Ref(|objs|))] + [EmptyObj];
    assert path[1..][|path| - 2] == path[|path| - 1];
    SetFromFrame(objs', Ref(|objs|), path[1..], value);
    var parent' := Walk(objs', Ref(|objs|), path[1..][..|path| - 2]);
    if |path| > 2 {
      assert parent' == Normal(Undefined);
    }
    CreateOnlyTouches(objs, current.addr, path[0], SetFrom(objs, current, path, value).result,
                      path[|path| - 1], parent', Walk(objs, current, path[..|path| - 1]));
  }

  /** The frame of `setIn`: apart from the objects it creates, it changes only
      the last key of the path on the parent that the path already reached
      (a parent it had to create is a new object), and the keys it adds to an
      existing object are that last key or a key holding a newly created `{}`.
      Key order is kept: new keys come after the old ones. */
  lemma SetFrame(objs: seq<Obj>, obj: Value, path: Path, value: Value)
    requires Closed(objs) && RefIn(obj, |objs|) && RefIn(value, |objs|) && path != []
    requires Set(objs, obj, path, value).Normal?
    ensures OnlyTouches(objs, Set(objs, obj, path, value).result, path[|path| - 1],
                        Walk(objs, obj, path[..|path| - 1]))
  {
    if Truthy(obj) {
      SetFromFrame(objs, obj, path, value);
    }
  }

  /** The walk along `path` from `current` reaches the object `x` at none of
      the proper prefixes of `path` (the empty prefix, `current` itself,
      included): these are the objects whose keys `setIn` tests and assigns. */
  ghost predicate Unreached(objs: seq<Obj>, current: Value, path: Path, x: nat)
    requires Closed(objs) && RefIn(current, |objs|)
  {
    forall j | 0 <= j < |path| :: Walk(objs, current, path[..j]) != Normal(Defined(Ref(x)))
  }

  /** The walk-level form of `SetTouchesOnlyWalk`. */
  lemma {:induction false} SetFromTouchesOnlyWalk(objs: seq<Obj>, current: Value, path: Path, value: Value)
    requires Closed(objs) && RefIn(current, |objs|) && RefIn(value, |objs|) && |path| >= 1
    requires SetFrom(objs, current, path, value).Normal?
    ensures forall x | 0 <= x < |objs| && Unreached(objs, current, path, x) ::
              SetFrom(objs, current, path, value).result[x] == objs[x]
    decreases |path|, 1
  {
    assert path[..0] == [];
    if |path| > 1 {
      if path[0] in objs[current.addr].props {
        TouchesOnlyWalkDescend(objs, current, path, value);
      } else {
        TouchesOnlyWalkCreate(objs, current, path, value);
      }
    }
  }

  /** `SetFromTouchesOnlyWalk` when the first key exists. */
  lemma {:induction false} TouchesOnlyWalkDescend(objs: seq<Obj>, current: Value, path: Path, value: Value)
    requires Closed(objs) && RefIn(current, |objs|) && RefIn(value, |objs|) && |path| >= 2
    requires current.Ref? && path[0] in objs[current.addr].props
    requires SetFrom(objs, current, path, value).Normal?
    ensures forall x | 0 <= x < |objs| && Unreached(objs, current, path, x) ::
              SetFrom(objs, current, path, value).result[x] == objs[x]
    decreases |path|, 0
  {
    var child := objs[current.addr].props[path[0]];
    var rest := path[1..];
    SetFromStep(objs, current, path, value);
    assert SetFrom(objs, current, path, value) == SetFrom(objs, child, rest, value);
    SetFromTouchesOnlyWalk(objs, child, rest, value);
    forall x | 0 <= x < |objs| && Unreached(objs, current, path, x)
      ensures Unreached(objs, child, rest, x)
    {
      forall j | 0 <= j < |rest|
        ensures Walk(objs, child, rest[..j]) != Normal(Defined(Ref(x)))
      {
        assert path[..j + 1][0] == path[0] && path[..j + 1][1..] == rest[..j];
        assert Walk(objs, current, path[..j + 1]) == Walk(objs, child, rest[..j]);
      }
    }
  }

  /** `SetFromTouchesOnlyWalk` when the first key is missing: the rest of the
      walk runs in fresh objects, which no old object number names. */
  lemma {:induction false} TouchesOnlyWalkCreate(objs: seq<Obj>, current: Value, path: Path, value: Value)
    requires Closed(objs) && RefIn(current, |objs|) && RefIn(value, |objs|) && |path| >= 2
    requires current.Ref? && path[0] !in objs[current.addr].props
    requires SetFrom(objs, current, path, value).Normal?
    ensures forall x | 0 <= x < |objs| && Unreached(objs, current, path, x) ::
              SetFrom(objs, current, path, value).result[x] == objs[x]
    decreases |path|, 0
  {
    SetFromStep(objs, current, path, value);
    var n := |objs|;
    var objs' := objs[current.addr := Assign(objs[current.addr], path[0], Ref(n))] + [EmptyObj];
    var rest := path[1..];
    assert SetFrom(objs, current, path, value) == SetFrom(objs', Ref(n), rest, value);
    SetFromTouchesOnlyWalk(objs', Ref(n), rest, value);
    forall x | 0 <= x < |objs| && Unreached(objs, current, path, x)
      ensures x != current.addr && objs'[x] == objs[x] && Unreached(objs', Ref(n), rest, x)
    {
      assert Walk(objs, current, path[..0]) == Normal(Defined(current));
      forall j | 0 <= j < |rest|
        ensures Walk(objs', Ref(n), rest[..j]) != Normal(Defined(Ref(x)))
      {
        if j > 0 {
          assert rest[..j][0] !in objs'[n].props;
        }
      }
    }
  }

  /** `setIn` changes only the objects that its walk along `path` reaches:
      every old object that no proper prefix of `path` reads is left exactly
      as it was. */
  lemma SetTouchesOnlyWalk(objs: seq<Obj>, obj: Value, path: Path, value: Value)
    requires Closed(objs) && RefIn(obj, |objs|) && RefIn(value, |objs|)
    requires Set(objs, obj, path, value).Normal?
    ensures forall x | 0 <= x < |objs| && Unreached(objs, obj, path, x) ::
              Set(objs, obj, path, value).result[x] == objs[x]
  {
    if Truthy(obj) && path != [] {
      SetFromTouchesOnlyWalk(objs, obj, path, value);
    }
  }

  // ------------------------------------------- setIn's intermediate objects

  /** The `j`-th intermediate of `path` from `current`, read in the heap `r`
      after `setIn`, is an object: the very object that stood there in `objs`,
      or, where `objs` had nothing, a newly created one that holds only the
      next key of the path. */
  ghost predicate IntermediateKept(objs: seq<Obj>, r: seq<Obj>, current: Value, path: Path, j: nat)
    requires Closed(objs) && Closed(r) && |r| >= |objs| && RefIn(current, |objs|) && j < |path|
  {
    var before := Walk(objs, current, path[..j]);
    var now := Walk(r, current, path[..j]);
    && now.Normal? && IsObject(now.result)
    && (|| (before.Normal? && IsObject(before.result) && before == now)
        || (&& before == Normal(Undefined)
            && |objs| <= now.result.v.addr < |r|
            && r[now.result.v.addr].keys == [path[j]]))
  }

  /** A `{}` created by `setIn` ends up holding only the next key of the
      path, on any heap: the rest of the walk runs through new objects only. */
  lemma CreatedHoldsNextKey(objs: seq<Obj>, n: nat, path: Path, value: Value)
    requires Closed(objs) && n < |objs| && objs[n] == EmptyObj
    requires RefIn(value, |objs|) && |path| >= 1
    requires SetFrom(objs, Ref(n), path, value).Normal?
    ensures SetFrom(objs, Ref(n), path, value).result[n].keys == [path[0]]
  {
    if |path| > 1 {
      SetFromStep(objs, Ref(n), path, value);
      var m := |objs|;
      var objs' := objs[n := Assign(objs[n], path[0], Ref(m))] + [EmptyObj];
      var rest := path[1..];
      forall j | 0 <= j < |rest|
        ensures Walk(objs', Ref(m), rest[..j]) != Normal(Defined(Ref(n)))
      {
        if j == 0 {
          assert rest[..0] == [];
        } else {
          assert rest[..j][0] !in objs'[m].props;
        }
      }
      assert Unreached(objs', Ref(m), rest, n);
      SetFromTouchesOnlyWalk(objs', Ref(m), rest, value);
    }
  }

  /** The walk-level form of `SetCreatesIntermediates`. */
  lemma {:induction false} SetFromIntermediates(objs: seq<Obj>, c: nat, path: Path, value: Value)
    requires Closed(objs) && Acyclic(objs) && c < |objs| && RefIn(value, |objs|) && |path| >= 1
    requires SetFrom(objs, Ref(c), path, value).Normal?
    ensures forall j | 1 <= j < |path| ::
              IntermediateKept(objs, SetFrom(objs, Ref(c), path, value).result, Ref(c), path, j)
    decreases |path|, 1
  {
    if |path| > 1 {
      if path[0] in objs[c].props {
        SetFromIntermediatesDescend(objs, c, path, value);
      } else {
        SetFromIntermediatesCreate(objs, c, path, value);
      }
    }
  }

  /** `SetFromIntermediates` when the first key exists. */
  lemma {:induction false} SetFromIntermediatesDescend(objs: seq<Obj>, c: nat, path: Path, value: Value)
    requires Closed(objs) && Acyclic(objs) && c < |objs| && RefIn(value, |objs|) && |path| >= 2
    requires path[0] in objs[c].props
    requires SetFrom(objs, Ref(c), path, value).Normal?
    ensures forall j | 1 <= j < |path| ::
              IntermediateKept(objs, SetFrom(objs, Ref(c), path, value).result, Ref(c), path, j)
    decreases |path|, 0
  {
    SetFromStep(objs, Ref(c), path, value);
    var child := objs[c].props[path[0]];
    var rest := path[1..];
    var r := SetFrom(objs, Ref(c), path, value).result;
    assert child.Ref? && c < child.addr;
    assert r == SetFrom(objs, child, rest, value).result;
    SetFromKeepsBelow(objs, child.addr, rest, value);
    SetFromIntermediates(objs, child.addr, rest, value);
    assert r[c] == objs[c];
    forall j | 1 <= j < |path|
      ensures IntermediateKept(objs, r, Ref(c), path, j)
    {
      assert path[..j][0] == path[0] && path[..j][1..] == rest[..j - 1];
      assert Walk(objs, Ref(c), path[..j]) == Walk(objs, child, rest[..j - 1]);
      assert Walk(r, Ref(c), path[..j]) == Walk(r, child, rest[..j - 1]);
      if j == 1 {
        assert rest[..0] == [];
      } else {
        assert IntermediateKept(objs, r, child, rest, j - 1);
      }
    }
  }

  /** `SetFromIntermediates` when the first key is missing. */
  lemma {:induction false} SetFromIntermediatesCreate(objs: seq<Obj>, c: nat, path: Path, value: Value)
    requires Closed(objs) && Acyclic(objs) && c < |objs| && RefIn(value, |objs|) && |path| >= 2
    requires path[0] !in objs[c].props
    requires SetFrom(objs, Ref(c), path, value).Normal?
    ensures forall j | 1 <= j < |path| ::
              IntermediateKept(objs, SetFrom(objs, Ref(c), path, value).result, Ref(c), path, j)
    decreases |path|, 0
  {
    SetFromStep(objs, Ref(c), path, value);
    CreateKeepsAcyclic(objs, c, path[0]);
    var n := |objs|;
    var objs' := objs[c := Assign(objs[c], path[0], Ref(n))] + [EmptyObj];
    var rest := path[1..];
    var r := SetFrom(objs, Ref(c), path, value).result;
    assert r == SetFrom(objs', Ref(n), rest, value).result;
    SetFromKeepsBelow(objs', n, rest, value);
    CreatedHoldsNextKey(objs', n, rest, value);
    SetFromIntermediates(objs', n, rest, value);
    assert r[c] == objs'[c];
    forall j | 1 <= j < |path|
      ensures IntermediateKept(objs, r, Ref(c), path, j)
    {
      assert path[..j][0] == path[0] && path[..j][1..] == rest[..j - 1];
      assert Walk(objs, Ref(c), path[..j]) == Normal(Undefined);
      assert Walk(r, Ref(c), path[..j]) == Walk(r, Ref(n), rest[..j - 1]);
      if j == 1 {
        assert rest[..0] == [];
      } else {
        assert IntermediateKept(objs', r, Ref(n), rest, j - 1);
        assert Walk(objs', Ref(n), rest[..j - 1]) == Normal(Undefined);
      }
    }
  }

  /** `setIn` creates `{}` for every missing intermediate key and leaves every
      intermediate object that already exists in place: after it, each
      proper prefix of the path reads the same object as before, or, where
      nothing was there, a new object holding just the next key. */
  lemma SetCreatesIntermediates(objs: seq<Obj>, root: nat, path: Path, value: Value)
    requires Closed(objs) && Acyclic(objs) && root < |objs| && RefIn(value, |objs|) && path != []
    requires Set(objs, Ref(root), path, value).Normal?
    ensures forall j | 1 <= j < |path| ::
              IntermediateKept(objs, Set(objs, Ref(root), path, value).result, Ref(root), path, j)
  {
    SetFromIntermediates(objs, root, path, value);
  }
}

=== FILE: js_heap.dfy ===
/** JavaScript values as they occur in the nested key-value documents that the
    structural differ and the path utilities work on, and the heap that holds
    their objects.

    Objects live in a store `objs: seq<Obj>`; an object reference is its index
    in the store, so two references are the same object exactly when their
    addresses are equal.  Creating an object appends it to the store.
 */
module JsHeap {

  /** A JavaScript primitive.  Numbers are limited to integers. */
  datatype Prim = Str(s: string) | Num(n: int) | Bool(b: bool) | Null

  /** A JavaScript value: a primitive, or a reference to a plain object. */
  datatype Value = Prim(p: Prim) | Ref(addr: nat)

  /** What reading a property `o[k]` gives: the stored value, or `undefined`. */
  datatype Read = Defined(v: Value) | Undefined

  /** How a call completes: it returns normally, or it throws a TypeError. */
  datatype Completion<T> = Normal(result: T) | TypeError

  /** An `Accessor` (src/utils/diff.ts:1): the keys leading from a root to a node. */
  type Path = seq<string>

  /** A plain object: its own keys in `Object.keys` order, and the value at each. */
  datatype Obj = Obj(keys: seq<string>, props: map<string, Value>)

  /** The object literal `{}`. */
  const EmptyObj: Obj := Obj([], map[])

  /** JavaScript truthiness: objects are truthy; `""`, `0`, `false` and `null` are not. */
  predicate Truthy(v: Value): (r: bool)
    ensures !r <==> v == Prim(Str("")) || v == Prim(Num(0)) || v == Prim(Bool(false)) || v == Prim(Null)
  {
    match v
    case Ref(_) => true
    case Prim(p) =>
      match p
      case Str(s) => s != ""
      case Num(n) => n != 0
      case Bool(b) => b
      case Null => false
  }

  /** `o[k]` for an own key `k`. */
  function Prop(o: Obj, k: string): Read {
    if k in o.props then Defined(o.props[k]) else Undefined
  }

  /** `isObject` (src/utils/diff.ts:3-5) applied to a property read: only a
      (non-array) object qualifies; `undefined`, `null` and primitives do not. */
  predicate IsObject(x: Read): (r: bool)
    ensures r <==> exists a: nat :: x == Defined(Ref(a))
  {
    x.Defined? && x.v.Ref?
  }

  /** `o[k] = v`: overwrites an existing key in place, appends a new one. */
  function Assign(o: Obj, k: string, v: Value): (r: Obj)
    ensures WellFormed(o) ==> WellFormed(r)
    ensures k in r.props && r.props[k] == v && r.props.Keys == o.props.Keys + {k}
    ensures forall j | j in o.props && j != k :: r.props[j] == o.props[j]
    ensures o.keys <= r.keys && |r.keys| <= |o.keys| + 1
  {
    Obj(if k in o.props then o.keys else o.keys + [k], o.props[k := v])
  }

  /** No element occurs twice in `s`. */
  ghost predicate Distinct<T>(s: seq<T>) {
    forall i, j | 0 <= i < j < |s| :: s[i] != s[j]
  }

  /** The keys of an object are pairwise distinct and are exactly its properties. */
  ghost predicate WellFormed(o: Obj) {
    && Distinct(o.keys)
    && (forall k :: k in o.props <==> k in o.keys)
  }

  /** A reference in a value points into a store of `n` objects. */
  predicate RefIn(v: Value, n: nat) {
    v.Ref? ==> v.addr < n
  }

  /** Every object is well formed and every reference it holds points into the store. */
  ghost predicate Closed(objs: seq<Obj>) {
    forall a | 0 <= a < |objs| ::
      && WellFormed(objs[a])
      && forall k | k in objs[a].props :: RefIn(objs[a].props[k], |objs|)
  }

  /** The object graph has no cycle.  It is stated through a numbering of the
      objects: every reference held by object `a` points to an object numbered
      after `a` (every acyclic heap can be numbered in this way). */
  ghost predicate Acyclic(objs: seq<Obj>) {
    forall a, k | 0 <= a < |objs| && k in objs[a].props && objs[a].props[k].Ref? ::
      a < objs[a].props[k].addr
  }

  /** The JavaScript heap holding the documents' objects. */
  class Heap {
    var objs: seq<Obj>

    ghost predicate Valid()
      reads this
    {
      Closed(objs)
    }

    constructor (objs: seq<Obj>)
      requires Closed(objs)
      ensures Valid() && this.objs == objs
    {
      this.objs := objs;
    }
  }
}

=== FILE: test_cases.dfy ===
/** The documents of the unit tests of src/utils/get_in.spec.ts and
    src/utils/diff.spec.ts, as heaps, with the results the tests expect. */
module TestCases {
  import opened JsHeap
  import opened GetIn
  import opened Diff
  import GetInProperties

  /** `{ a: { b: { c: 1 } } }`, its root at address 0. */
  function Nested(): (objs: seq<Obj>)
    ensures Closed(objs) && Acyclic(objs)
  {
    [ Obj(["a"], map["a" := Ref(1)]),
      Obj(["b"], map["b" := Ref(2)]),
      Obj(["c"], map["c" := Prim(Num(1))]) ]
  }

  /** src/utils/get_in.spec.ts:4-8: the empty path reads `undefined`. */
  lemma GetEmptyPath()
    ensures Get(Nested(), Ref(0), []) == Normal(Undefined)
  {
  }

  /** src/utils/get_in.spec.ts:10-14: a missing last key reads `undefined`. */
  lemma GetMissingKey()
    ensures Get(Nested(), Ref(0), ["a", "b", "d"]) == Normal(Undefined)
  {
  }

  /** src/utils/get_in.spec.ts:16-20: an existing path reads its value. */
  lemma GetExistingPath()
    ensures Get(Nested(), Ref(0), ["a", "b", "c"]) == Normal(Defined(Prim(Num(1))))
  {
  }

  /** `{ a: s }` for a string `s`, its root at address 0. */
  function HoldsString(s: string): (objs: seq<Obj>)
    ensures Closed(objs) && Acyclic(objs)
  {
    [Obj(["a"], map["a" := Prim(Str(s))])]
  }

  /** Reading through a non-empty string throws at `key in current`; reading
      through the empty string, which is falsy, gives `undefined`. */
  lemma GetThroughString()
    ensures Get(HoldsString("x"), Ref(0), ["a", "b"]) == TypeError
    ensures Get(HoldsString(""), Ref(0), ["a", "b"]) == Normal(Undefined)
  {
  }

  /** `setIn({}, ["a", "b"], 1)` creates `{ a: { b: 1 } }`. */
  lemma SetCreatesPath()
    ensures Set([EmptyObj], Ref(0), ["a", "b"], Prim(Num(1))) ==
              Normal([Obj(["a"], map["a" := Ref(1)]), Obj(["b"], map["b" := Prim(Num(1))])])
  {
    assert Assign(EmptyObj, "a", Ref(1)) == Obj(["a"], map["a" := Ref(1)]) by {
      assert [] + ["a"] == ["a"];
    }
    assert Assign(EmptyObj, "b", Prim(Num(1))) == Obj(["b"], map["b" := Prim(Num(1))]) by {
      assert [] + ["b"] == ["b"];
    }
    var objs' := [EmptyObj][0 := Assign(EmptyObj, "a", Ref(1))] + [EmptyObj];
    assert objs' == [Obj(["a"], map["a" := Ref(1)]), EmptyObj];
    assert ["a", "b"][1..] == ["b"];
    assert objs'[1 := Assign(objs'[1], "b", Prim(Num(1)))] ==
             [Obj(["a"], map["a" := Ref(1)]), Obj(["b"], map["b" := Prim(Num(1))])];
    assert SetFrom(objs', Ref(1), ["b"], Prim(Num(1))) ==
             Normal([Obj(["a"], map["a" := Ref(1)]), Obj(["b"], map["b" := Prim(Num(1))])]);
  }

  /** `setIn({ a: 1 }, ["a", "b"], 2)` throws: the loop moves the cursor to
      `1`, and the final assignment `1["b"] = 2` is a TypeError in strict mode. */
  lemma SetThroughNumber()
    ensures Set([Obj(["a"], map["a" := Prim(Num(1))])], Ref(0), ["a", "b"], Prim(Num(2))) == TypeError
  {
  }

  /** src/utils/diff.spec.ts:6-7: `prev` (address 0) is
      `{ a: 1, b: { c: 2 } }` and `next` (address 2) is
      `{ a: 1, b: { c: 2, d: 3 }, e: 4 }`. */
  function AddedAndRemoved(): (objs: seq<Obj>)
    ensures Closed(objs) && Acyclic(objs) && |objs| == 4
  {
    [ Obj(["a", "b"], map["a" := Prim(Num(1)), "b" := Ref(1)]),
      Obj(["c"], map["c" := Prim(Num(2))]),
      Obj(["a", "b", "e"], map["a" := Prim(Num(1)), "b" := Ref(3), "e" := Prim(Num(4))]),
      Obj(["c", "d"], map["c" := Prim(Num(2)), "d" := Prim(Num(3))]) ]
  }

  /** The nested diff below `b` in src/utils/diff.spec.ts:5-12: `b.d` is added. */
  lemma DiffBelowB()
    ensures DeepDiffOf(AddedAndRemoved(), 1, 3, ["b"]) == DeepDiff([["b", "d"]], [])
  {
    var objs := AddedAndRemoved();
    assert "d" !in objs[1].props;
    assert KeyDiff(objs, 1, 3, ["b"], "c") == DeepDiff([], []);
    assert KeyDiff(objs, 1, 3, ["b"], "d") == DeepDiff([["b", "d"]], []) by {
      assert ["b"] + ["d"] == ["b", "d"];
    }
    assert ["c", "d"][..1] == ["c"] && ["c"][..0] == [];
    assert NextKeysDiff(objs, 1, 3, ["b"], ["c"]) == DeepDiff([], []);
    assert NextKeysDiff(objs, 1, 3, ["b"], ["c", "d"]) == DeepDiff([["b", "d"]], []);
    assert GoneKeys(["b"], ["c"], objs[3]) == [];
  }

  /** The passes of the first loop in src/utils/diff.spec.ts:5-12: `a` adds
      nothing, `b` adds what the nested diff adds, `e` adds itself. */
  lemma DiffTopKeys()
    ensures KeyDiff(AddedAndRemoved(), 0, 2, [], "a") == DeepDiff([], [])
    ensures KeyDiff(AddedAndRemoved(), 0, 2, [], "b") == DeepDiff([["b", "d"]], [])
    ensures KeyDiff(AddedAndRemoved(), 0, 2, [], "e") == DeepDiff([["e"]], [])
  {
    var objs := AddedAndRemoved();
    DiffBelowB();
    assert "e" !in objs[0].props;
    assert [] + ["b"] == ["b"] && [] + ["e"] == ["e"];
    assert [] + [["b", "d"]] == [["b", "d"]];
  }

  /** src/utils/diff.spec.ts:5-12: the nested key `b.d` and the top-level key
      `e` are added, in that order, and nothing is removed. */
  lemma DiffAddedAndRemoved()
    ensures DeepDiffOf(AddedAndRemoved(), 0, 2, []) == DeepDiff([["b", "d"], ["e"]], [])
  {
    var objs := AddedAndRemoved();
    DiffTopKeys();
    assert ["a", "b", "e"][..2] == ["a", "b"] && ["a", "b"][..1] == ["a"] && ["a"][..0] == [];
    assert NextKeysDiff(objs, 0, 2, [], ["a"]) == DeepDiff([], []);
    assert NextKeysDiff(objs, 0, 2, [], ["a", "b"]) == DeepDiff([["b", "d"]], []);
    assert NextKeysDiff(objs, 0, 2, [], ["a", "b", "e"]) == DeepDiff([["b", "d"], ["e"]], []);
    assert GoneKeys([], ["a", "b"], objs[2]) == [];
  }

  /** src/utils/diff.spec.ts:14-24: diffing from `{}` (address 0) to
      `{ title: …, description: … }` (address 1) adds both keys in order. */
  lemma DiffFromEmptyExample()
    ensures var objs := [EmptyObj, Obj(["title", "description"],
                                       map["title" := Prim(Str("こんにちは")), "description" := Prim(Str("これはテストのために日本語で書かれたファイルです"))])];
            Diffable(objs, 0, 1) && DeepDiffOf(objs, 0, 1, []).added == [["title"], ["description"]]
  {
    var objs := [EmptyObj, Obj(["title", "description"],
                               map["title" := Prim(Str("こんにちは")), "description" := Prim(Str("これはテストのために日本語で書かれたファイルです"))])];
    assert ["title", "description"][..1] == ["title"] && ["title"][..0] == [];
    assert [] + ["title"] == ["title"] && [] + ["description"] == ["description"];
    assert KeyDiff(objs, 0, 1, [], "title") == DeepDiff([["title"]], []);
    assert KeyDiff(objs, 0, 1, [], "description") == DeepDiff([["description"]], []);
    assert NextKeysDiff(objs, 0, 1, [], ["title"]) == DeepDiff([["title"]], []);
    assert NextKeysDiff(objs, 0, 1, [], ["title", "description"]) == DeepDiff([["title"], ["description"]], []);
  }

  /** Get after set needs an acyclic heap: with `o.a === o`,
      `setIn(o, ["a", "a"], 5)` overwrites `o.a` itself, and reading
      `["a", "a"]` back evaluates `"a" in 5`, which throws. */
  lemma SetThenGetOnCycle()
    ensures Set([Obj(["a"], map["a" := Ref(0)])], Ref(0), ["a", "a"], Prim(Num(5))) ==
              Normal([Obj(["a"], map["a" := Prim(Num(5))])])
    ensures Get([Obj(["a"], map["a" := Prim(Num(5))])], Ref(0), ["a", "a"]) == TypeError
  {
    var objs := [Obj(["a"], map["a" := Ref(0)])];
    assert ["a", "a"][1..] == ["a"];
    assert map["a" := Ref(0)]["a" := Prim(Num(5))] == map["a" := Prim(Num(5))];
    assert Assign(objs[0], "a", Prim(Num(5))) == Obj(["a"], map["a" := Prim(Num(5))]);
    assert objs[0 := Assign(objs[0], "a", Prim(Num(5)))] == [Obj(["a"], map["a" := Prim(Num(5))])];
    assert SetFrom(objs, Ref(0), ["a"], Prim(Num(5))) == Normal([Obj(["a"], map["a" := Prim(Num(5))])]);
    assert Walk([Obj(["a"], map["a" := Prim(Num(5))])], Prim(Num(5)), ["a"]) == TypeError;
  }

  /** On the same cyclic object the law can still hold: `setIn(o, ["b"], 1)`
      adds `b` next to `a`, and reading `["b"]` back gives `1`. */
  lemma SetThenGetOnCycleHolds()
    ensures Set([Obj(["a"], map["a" := Ref(0)])], Ref(0), ["b"], Prim(Num(1))) ==
              Normal([Obj(["a", "b"], map["a" := Ref(0), "b" := Prim(Num(1))])])
    ensures Get([Obj(["a", "b"], map["a" := Ref(0), "b" := Prim(Num(1))])], Ref(0), ["b"]) ==
              Normal(Defined(Prim(Num(1))))
  {
    var objs := [Obj(["a"], map["a" := Ref(0)])];
    assert ["b"][1..] == [];
    assert ["a"] + ["b"] == ["a", "b"];
    assert Assign(objs[0], "b", Prim(Num(1))) == Obj(["a", "b"], map["a" := Ref(0), "b" := Prim(Num(1))]);
    var after := [Obj(["a", "b"], map["a" := Ref(0), "b" := Prim(Num(1))])];
    assert objs[0 := Assign(objs[0], "b", Prim(Num(1)))] == after;
    assert SetFrom(objs, Ref(0), ["b"], Prim(Num(1))) == Normal(after);
    assert Walk(after, Prim(Num(1)), []) == Normal(Defined(Prim(Num(1))));
  }

  /** `SetCreatesIntermediates` needs an acyclic heap: with `o.a === o`,
      `setIn(o, ["a", "a"], 5)` overwrites `o.a`, so the prefix `["a"]`
      afterwards reads `5`, not the object it read before. */
  lemma IntermediatesOnCycle()
    ensures !GetInProperties.IntermediateKept([Obj(["a"], map["a" := Ref(0)])], [Obj(["a"], map["a" := Prim(Num(5))])],
                                               Ref(0), ["a", "a"], 1)
  {
    var after := [Obj(["a"], map["a" := Prim(Num(5))])];
    assert ["a", "a"][..1] == ["a"] && ["a"][1..] == [];
    assert Walk(after, Prim(Num(5)), []) == Normal(Defined(Prim(Num(5))));
  }
}
